=== FILE: README.md ===
# ThunderBase change capture and fan-out, in Dafny

ThunderBase is a small change-capture server written in Go (`main.go`), plus a browser client (`client.js`).

When the server starts, `initDatabase` does three things:
- it creates the change log table `_changes`;
- it lists the tracked tables of the SQLite catalog;
- it installs three triggers on every tracked table, one each for INSERT, UPDATE and DELETE.

Each trigger appends a row `(table, event, json_object(...))` to `_changes`.

Two loops then run concurrently:
- Once a second, `pollChanges` reads at most 100 of the oldest change rows. It hands each row it can scan to the broadcast channel, then deletes the ids it handed off.
- `broadcastChanges` takes each event off the channel and writes it to every registered websocket client. A client whose write fails is dropped.

`handleConnections` does three things for each new connection:
- it greets it with a welcome message;
- it registers it;
- it removes it when a read fails.

On the browser side, a `ThunderBase` object memoises one `Collection` per name. `subscribe(event, callback)` attaches a "message" listener to the websocket. That listener passes a message to the callback when the message is about this collection and its event matches (`"*"` matches any event). `unsubscribe(callback)` detaches the listener again.

The model keeps the sequential logic and turns every I/O result into a parameter:
- whether a statement succeeds;
- what the catalog and `PRAGMA table_info` return;
- whether the poll query, a row scan or the delete succeeds;
- whether a write to a client succeeds.

The modules follow the program:

- `Wrappers`, `Sequences`, `Text`: option and result types, subsequences, and Go's `strings.Repeat`, `strings.Join` and `fmt.Sprintf`.
- `Changes`: the `_changes` row, the `ChangeEvent` it is scanned into, and the change log as a sequence sorted by id.
- `SqlText`: `placeholders`, `intsToInterface`, `buildJsonObject`, the trigger names, and the trigger statement text.
- `Schema`: SQLite `LIKE` and the `getTables` filter.
- `Triggers`: the `initDatabase` installation pass.
  - Installed triggers are a map from name to the statement that created it.
  - `CREATE TRIGGER IF NOT EXISTS` is insertion of a name that is absent.
- `Poller`: one tick of `pollChanges`, and draining the log with ticks where every I/O succeeds.
- `Registry`: the client registry with `handleConnections` and `broadcastChanges`.
  - Each connection has an inbox recording what was written to it.
- `Pipeline`: the poller and the broadcaster together. The channel between them is first-in first-out.
- `Client`: `client.js`.
  - JavaScript object identity is a counter-issued number.

Behaviour of the code that the model states explicitly:

- **The `getTables` filter matches more than the prefix `sqlite_`.**
  - In `LIKE 'sqlite_%'` the `_` is a one-character wildcard, and SQLite's `LIKE` ignores ASCII case.
  - So the filter drops every name that starts with `sqlite` in any case and has at least one more character. `sqliteX` and `SQLite_stat1` are both dropped.
  - A bare `sqlite` is kept.
- **A scan failure skips only that row.** The code does `continue` and goes on to the next row of the batch.
  - The skipped row is not deleted, so it stays at the head of the log.
  - If every row of a batch fails to scan, a tick over the same log reads the same batch again and delivers nothing (`Poller.StuckBatch`). A batch of fewer than 100 rows also takes in rows inserted since, and those are forwarded and deleted. Delivery stops for good only when 100 rows that always fail to scan head the log.
- **A failed delete leaves every forwarded row in the log.** The next tick forwards the same events again, so delivery is at-least-once.
- **`IF NOT EXISTS` keeps the old trigger.** A trigger that already exists keeps its old definition, even if the table's columns have changed since.
- **The registry is a set.** A client whose write fails in one round receives nothing afterwards. The other clients are unaffected.
- **On the client, connections and subscriptions do not carry over.**
  - `connect()` replaces the socket without closing the old one. The old socket stays open, and its listeners keep calling their callbacks. `unsubscribe` afterwards acts only on the new socket (`Client.ReconnectKeepsOldListener`).
  - Subscribing the same callback twice leaves one listener attached after `unsubscribe`.

## Model

| member | source | states |
|---|---|---|
| SqlText.Placeholders | main.go:314-319 | For n ≤ 0 the result is empty. Otherwise it has 2n−1 characters alternating `?` and `,`, so it starts and ends with `?`. |
| SqlText.PlaceholderCount | main.go:314-319 | `placeholders(n)` holds exactly n `?` markers. |
| SqlText.IntsToInterface | main.go:321-327 | One boxed argument per id. An int64 is among the arguments exactly when it is among the ids. |
| SqlText.BoxingRoundTrip | main.go:321-327 | Unboxing the arguments gives back the ids in their order. |
| SqlText.DeleteSqlArity | main.go:198-202 | The DELETE statement has exactly as many `?` markers as arguments are bound to it. |
| SqlText.RowImage | main.go:139-144 | The column prefix is `OLD` exactly when the event is `"DELETE"`, and `NEW` for every other event. |
| SqlText.BuildJsonObject | main.go:136-148 | The pair list is empty exactly when there are no columns. |
| SqlText.BuildJsonObjectRoundTrip | main.go:136-148 | Reading the generated text back yields exactly the column list, in order. So there is one pair per column, each pair naming the column and taking its value from the row image the event selects. |
| SqlText.TriggerNameParts | main.go:94 | A trigger name is the table name, `_`, the event and `_trigger`. |
| SqlText.TriggerNamesDistinct | main.go:92-94 | Over INSERT, UPDATE and DELETE, different (table, event) pairs give different trigger names. |
| SqlText.TriggerSqlShape | main.go:93-100 | The statement text does four things: it creates `IF NOT EXISTS` the trigger of that name; it fires `AFTER` the event `ON` the table; it inserts into `_changes (collection, event, data)`; and its values are the table, the event and the `json_object` of the columns. |
| Schema.InternalPatternMatches | main.go:154 | `LIKE 'sqlite_%'` matches exactly the names of at least 7 characters whose first 6 fold to `sqlite` under ASCII case. |
| Schema.TrackedExactly | main.go:153-155 | A name is tracked exactly when it is not `_changes` and is not of that form. |
| Schema.FilterExamples | main.go:154-155 | `sqlite_sequence`, `SQLite_stat1`, `sqliteX` and `_changes` are dropped. `sqlite` and `users` are kept. |
| Schema.SelectTables | main.go:151-168 | A name is listed exactly when a `table` row of the catalog has it and it is tracked. The list keeps catalog order. |
| Schema.GetTables | main.go:150-171 | It fails exactly when the catalog query fails. Otherwise it returns the tracked table names in catalog order. |
| Triggers.CreateIfNotExists | main.go:94 | The names become the old names plus this one. Existing triggers keep their definitions. A new name gets the given statement. |
| Triggers.TrackedNamesMembers | main.go:85-94 | The trigger names of a table list are exactly `TriggerName(t, e)` for t a listed table and e one of the three events. |
| Triggers.InstallEventsSpec | main.go:92-106 | The events are tried in order. The names added are those of the events before the first failing one. The outcome is success, or the error naming the table and that event. |
| Triggers.InstallEventsStatements | main.go:92-102 | A trigger the pass added holds the statement for its own table, event and columns. |
| Triggers.InstallTablesSpec | main.go:85-107 | If every table passes, all three triggers of every table are added. Otherwise the pass stops at the first failing table. It returns that table's column or trigger error. It keeps the triggers of the earlier tables and of that table's earlier events. |
| Triggers.InstallTablesStatements | main.go:85-102 | A trigger the pass added was built from the column list the lookup returned for its table. |
| Triggers.InstalledTriggerText | main.go:93-102 | The text of every added trigger creates its own name, fires after its own event on its own table, and inserts into `_changes`. |
| Triggers.InstallTablesIdempotent | main.go:85-107 | A second pass over the same tables adds no trigger and returns the same outcome. |
| Triggers.InitDatabase | main.go:57-81 | It never removes or redefines an existing trigger. If creating `_changes` fails, or listing the tables fails, it stops with that error and installs nothing. |
| Triggers.InitDatabaseInstallsAll | main.go:57-110 | A successful start installs exactly the three triggers of every tracked table, on top of those already present. |
| Triggers.InitDatabaseIdempotent | main.go:57-110 | Re-running initialisation over the same catalog, with the same statement outcomes and column lists, changes nothing and reports the same outcome. This covers `createTable` on a table that already exists. |
| Triggers.CreateTableAddsTriggers | main.go:262-269 | `createTable` on a new tracked table appends it to the catalog and re-runs initialisation. When both runs succeed, every earlier trigger keeps its definition and exactly the new table's three trigger names are added. |
| Poller.Batch | main.go:178 | The batch is the min(100, log size) rows with the smallest ids, in ascending id order. Every batched row has a smaller id than every row left out. |
| Poller.Forward | main.go:184-195 | The forwarded rows are exactly the batched rows that scan, in batch order. |
| Poller.DeleteWhere | main.go:198-202 | `DELETE ... WHERE id IN (...)` removes exactly the rows whose id is bound, and keeps the order of the rest. |
| Poller.DeletesForwarded | main.go:194-201 | The bound ids select exactly the forwarded rows, and no other row of the log. |
| Poller.Tick | main.go:177-206 | It sends at most 100 events. A failed query sends nothing and changes nothing. Otherwise it sends the events of the scanned batch rows in id order. A row is removed exactly when the query and the delete succeeded and the row was batched and scanned. A removed row's event was sent. A failed delete keeps the log. |
| Poller.RedeliveryAfterDeleteFailure | main.go:198-205 | After a failed delete, the next tick sends the same events again, so delivery is at-least-once. |
| Poller.StuckBatch | main.go:184-191 | When no row of the batch scans, the tick sends nothing and the log stays as it was. |
| Poller.TickAllOk | main.go:177-206 | With no failures, a tick sends the events of the first min(100, n) rows and leaves the rest of the log. |
| Poller.DrainDeliversAll | main.go:177-207 | Repeated failure-free ticks deliver every change of the log exactly once, in id order. |
| Registry.Accept | main.go:220-227 | A connection is registered and greeted exactly when the welcome write succeeds. Nothing else changes. |
| Registry.ReadFailed | main.go:230-237 | A read failure unregisters the connection. Other registrations and every inbox are unchanged. |
| Registry.ReadFailedIdempotent | main.go:234-236 | Removing an absent connection is a no-op. |
| Registry.RegisterThenDrop | main.go:220-237 | A new connection that is greeted and then fails to read has received only the welcome, and the registry is back to what it was. |
| Registry.BroadcastStep | main.go:249-258 | The registry becomes the old one minus the clients whose write failed. Each surviving client receives the event, and nobody else does. |
| Registry.Broadcast | main.go:250-257 | The loop over the clients writes to every registered client and reaches the same state as `BroadcastStep`. |
| Registry.FailureIsolated | main.go:250-257 | A failing client is dropped and gets nothing, and a succeeding client still receives the event. |
| Registry.DistributeRegistered | main.go:244-260 | Over a sequence of events, a client receives the events in order up to its first failed write, and stays registered exactly when no write failed. |
| Registry.SubscriberReceivesAll | main.go:244-260 | A client whose writes all succeed receives every event, in channel order, and stays registered. |
| Pipeline.SubscriberSeesLogInOrder | main.go:177-258 | Suppose the broadcaster's rounds carry exactly the events of draining the log with ticks where every query, scan and delete succeeds. Then a registered client whose every write succeeds receives every change of the log exactly once, in id order. |
| Pipeline.NewSubscriberTranscript | main.go:220-258 | Under the same two conditions (failure-free ticks, and every write to the connection succeeding), a new connection whose welcome succeeds receives the welcome and then every change of the log, each once, in id order. |
| Client.Connect | client.js:15-21 | The new socket is a new object with no listeners. The previous socket is kept, with its listeners, among the replaced sockets, which stay open. The collections are kept. |
| Client.GetCollection | client.js:8-13 | A known name returns the stored object and changes nothing. An unknown name creates a fresh object with no listeners, and leaves the other collections, the socket and the replaced sockets alone. |
| Client.CollectionMemoised | client.js:8-13 | Asking twice for a name returns the same object. Different names give different objects. |
| Client.AcceptsCases | client.js:78-83 | A listener ignores other collections' messages. For `"*"` it accepts every event of its collection; otherwise it accepts only an equal event. |
| Client.Dispatch | client.js:76-86 | A message calls exactly the callbacks of the attached listeners that accept it. Each listener makes at most one call. |
| Client.DispatchAppend | client.js:76-86 | Listeners run in the order they were added: dispatch over two lists, one after the other, is the dispatch over the first followed by the dispatch over the second. Together with `Client.Dispatch` on one listener, this fixes every call, how often it happens and in what order. |
| Client.Subscribe | client.js:69-88 | It fails exactly when there is no socket, and then registers nothing. Otherwise it appends a new listener to the socket and maps the callback to it. |
| Client.RemoveListener | client.js:93 | It detaches exactly the listener with that identity, and the result is a subsequence of the list. |
| Client.RemoveListenerAppend | client.js:93 | The remaining listeners keep their order: removal from two lists, one after the other, is removal from each. |
| Client.Unsubscribe | client.js:90-96 | An unknown callback changes nothing. With no socket, a known one makes the call throw. Otherwise the callback's listener is detached from the current socket by its identity and the callback's entry is deleted. The collection keeps its name and every other listener entry. Every other collection, the reference counter and the replaced sockets are unchanged, and the client's invariant is kept. |
| Client.SubscribeUnsubscribe | client.js:69-96 | Subscribing a new callback and then unsubscribing it restores the socket's listeners and the collections. |
| Client.DoubleSubscribeCallsTwice | client.js:76-87 | After subscribing one callback twice, a matching message calls the earlier listeners' callbacks and then this callback twice. |
| Client.UnsubscribeDetached | client.js:90-96 | Unsubscribing a callback whose listener is not on the current socket, as after a reconnect, deletes its entry and leaves the socket's listeners unchanged. |
| Client.DoubleSubscribeLeaks | client.js:86-94 | After subscribing one callback twice and unsubscribing it once, the callback is unmapped but still called for matching messages. |
| Client.ReconnectKeepsOldListener | client.js:15-21 | After subscribe, `connect()` and then `unsubscribe`, the callback's entry is gone and the new socket has no listeners. A matching message on the replaced socket, which is still open, still calls the callback. |
| Client.GetCollectionAsWritten | client.js:8-13 | As written, a name that is a member of `Object.prototype` and not yet an own collection returns the inherited member instead of a collection. |
| Client.PrototypeNameCounterexample | client.js:9-12 | On a fresh client, `collection("toString")` returns the inherited function as written. The corrected lookup returns a new collection named `toString`. |

## Left out

- Logging is not modelled: the `log.Println`, `log.Printf` and `log.Fatal` calls of main.go, such as main.go:180, 189 and 204. They write to the process log and change no state the model keeps. The `log.Fatal` calls, which also end the process, are in the startup code (main.go:280-311), which is not modelled.
- SQL execution, trigger firing and `PRAGMA table_info` are not modelled. They are engine behaviour; statement success and the column lookup are parameters (`execOk`, `columnsOf`).
- The change log is assumed sorted by id. That is what `AUTOINCREMENT` guarantees, not something the Go code does. Inserting rows by trigger firing is not modelled.
- The key of `execOk` and of the trigger map is a `Statement` value, not raw SQL text. Its text is given by `SqlText.TriggerSql` and `SqlText.CreateChangesSql`, so the statements keep their exact text.
- The `CREATE TABLE _changes` text is written out, but no property is stated about it: it depends on no input.
- `getTables` is modelled as one query result, either the catalog rows or a failure. A failed `Scan` of a catalog row returns an error (main.go:164-166), and that is the failure. The code never checks `rows.Err`. So an error partway through the rows returns the rows read so far as success, and only those tables get triggers. The model covers this only when the catalog parameter is that truncated list; it does not produce the truncation itself.
- In `pollChanges`, a scan failure is a per-row predicate (`scanOk`). An iteration error, which `rows.Err` would report, is not modelled. It ends the batch early, and the code still deletes the rows forwarded before it. `Poller.Tick` always reads the whole batch, so it cannot express that shorter batch.
- Goroutines, the unbuffered channel, the mutex, the one-second ticker and `defer` are not modelled. The consumer tick and the broadcast step are sequential transitions, and the channel is the sequence of rounds, in order.
- `client.Close()` on a failed write and `conn.Close()` are not modelled: the registry only records membership and what each connection received. Connections are identified by numbers, not by `*websocket.Conn`.
- The websocket upgrade, the HTTP handlers, `NewThunderBase`, `createTable`, `insertDummyData` and `main` are plumbing and demo seeding. They are left out; `createTable` appears only as a reason to re-run initialisation.
- JSON encoding of the welcome map and of `ChangeEvent` is left out. A written message is `Welcome` or `Change(event)`.
- `JSON.parse` in the client listener is left out. A message reaches the listener already parsed into its `collection` and `event` fields, and a parse failure is not modelled.
- The fetch wrappers of `client.js` (`all`, `getOne`, `create`, `update`, `delete`) are thin network calls and are left out. So are `baseUrl` and the Promise returned by `connect`.
- Identifier escaping is absent from the code, so the model builds strings from the raw names.
- SqlText.BuildJsonObjectRoundTrip: requires column names without a single quote. A name that contains `'` makes the generated text ambiguous, and the code does not escape it.
- SqlText.TriggerSqlShape: states that the statement contains its four clauses, not the exact whitespace between them. The exact text is the definition `SqlText.TriggerSql`.
- Triggers.CreateIfNotExists: compares trigger names exactly. SQLite compares trigger names ignoring ASCII case, so `IF NOT EXISTS` is a no-op when a case variant of the name exists. The model would add a second entry, and in that case the key sets in `Triggers.InstallTablesSpec` and `Triggers.InitDatabaseInstallsAll` hold more names than the database.
- Pipeline.SubscriberSeesLogInOrder: only for failure-free poll ticks and a client whose writes all succeed. A failed delete sends events again (`Poller.RedeliveryAfterDeleteFailure`), so with failures delivery is at-least-once, not exactly once. A failed write unregisters the client (`Registry.DistributeRegistered`).
- Pipeline.NewSubscriberTranscript: the same two conditions as `Pipeline.SubscriberSeesLogInOrder`, for the same reasons.
- Poller.DrainDeliversAll: covers ticks where every I/O succeeds. With failures, `Poller.Tick` states what happens in a single tick.

## Findings

| source | as written | input that shows it | evidently intended | confidence | as-written member | corrected member |
|---|---|---|---|---|---|---|
| client.js:9-12 | `collection(name)` tests `!this.collections[name]` on a plain object, so inherited members of `Object.prototype` count as present | `collection("toString")` on a fresh client returns `Object.prototype.toString` instead of a `Collection` | create a collection for every name not yet stored as an own entry | not executed | Client.GetCollectionAsWritten | Client.GetCollection |

=== FILE: changes.dfy ===
/** The records that flow through the capture pipeline (main.go, `ChangeEvent`
    and the `_changes` table). */
module Changes {

  /** Go's `int64`, the type of change-log identifiers. */
  newtype int64 = x: int | -0x8000_0000_0000_0000 <= x < 0x8000_0000_0000_0000

  /** Name of the append-only change-log table. */
  const ChangesTable: string := "_changes"

  /** One row of the change log: identifier, source table, mutation kind and the
      JSON text the trigger built. */
  datatype ChangeRow = ChangeRow(id: int64, collection: string, event: string, data: string)

  /** The in-memory event derived from a scanned row; it carries no identifier. */
  datatype ChangeEvent = ChangeEvent(collection: string, event: string, data: string)

  /** The event a successfully scanned row becomes. */
  function ToEvent(row: ChangeRow): ChangeEvent
  {
    ChangeEvent(row.collection, row.event, row.data)
  }

  /** The events of a sequence of rows, in the same order. */
  function Events(rows: seq<ChangeRow>): (r: seq<ChangeEvent>)
    ensures |r| == |rows|
    ensures forall i :: 0 <= i < |rows| ==> r[i] == ToEvent(rows[i])
  {
    seq(|rows|, i requires 0 <= i < |rows| => ToEvent(rows[i]))
  }

  /** Identifiers strictly increase along the sequence (so they are also unique). */
  predicate SortedById(rows: seq<ChangeRow>)
  {
    forall i, j :: 0 <= i < j < |rows| ==> rows[i].id < rows[j].id
  }

  /** The contents of the `_changes` table, listed in identifier order. The table's
      primary key makes identifiers unique, so this listing is canonical. */
  type Log = rows: seq<ChangeRow> | SortedById(rows) witness []
}

=== FILE: client.dfy ===
/** The browser client of client.js: a `ThunderBase` object holding the websocket
    and one memoised `Collection` per name, and the subscription bookkeeping of a
    collection (its callback-to-listener map and the socket's listener list).
    JavaScript object identity is a number handed out by a counter; a callback's
    identity is chosen by the caller. */
module Client {
  import opened Wrappers
  import opened Sequences

  /** Identity of a JavaScript object (a collection, a socket or a listener closure). */
  type ObjectRef = nat

  /** Identity of a callback function passed by the application. */
  type CallbackRef = nat

  /** The closure `subscribe` creates: which collection and kind it accepts, and the
      callback it calls. */
  datatype Listener = Listener(ref: ObjectRef, collection: string, event: string, callback: CallbackRef)

  /** A `Collection` object: its identity, its name and its listeners map. */
  datatype Collection = Collection(oid: ObjectRef, name: string, listeners: map<CallbackRef, Listener>)

  /** A websocket: its identity and its "message" listeners, in the order they were added. */
  datatype Socket = Socket(oid: ObjectRef, listeners: seq<Listener>)

  /** The client object: the socket (null until `connect`), the collections by name,
      the next unused object identity, and the sockets earlier `connect` calls
      replaced. Nothing closes a replaced socket, so it stays open and its listeners
      keep running. */
  datatype ThunderBase = ThunderBase(socket: Option<Socket>, collections: map<string, Collection>,
                                     nextRef: ObjectRef, replaced: seq<Socket>)

  /** What the client throws. */
  datatype ClientError =
    | NotConnected  // `subscribe` before `connect`
    | NoSocket      // `removeEventListener` on a null socket

  /** A freshly constructed client. */
  const Fresh: ThunderBase := ThunderBase(None, map[], 0, [])

  /** Identities in use are below the counter, collections are stored under their
      own name, and distinct names hold distinct objects. */
  predicate Valid(tb: ThunderBase)
  {
    && (forall n :: n in tb.collections ==> tb.collections[n].name == n && tb.collections[n].oid < tb.nextRef)
    && (forall n, m :: n in tb.collections && m in tb.collections && n != m ==>
          tb.collections[n].oid != tb.collections[m].oid)
    && (forall n, cb :: n in tb.collections && cb in tb.collections[n].listeners ==>
          tb.collections[n].listeners[cb].ref < tb.nextRef)
    && (tb.socket.Some? ==> tb.socket.value.oid < tb.nextRef)
    && (tb.socket.Some? ==> forall i :: 0 <= i < |tb.socket.value.listeners| ==>
          tb.socket.value.listeners[i].ref < tb.nextRef)
  }

  /** `connect()`: a new socket replaces the old one as soon as it is created,
      whether or not it later opens. The old socket is not closed: it joins the
      replaced sockets with its listeners still attached. */
  function Connect(tb: ThunderBase): (r: ThunderBase)
    ensures r.socket.Some? && r.socket.value.listeners == []
    ensures Valid(tb) && tb.socket.Some? ==> r.socket.value.oid != tb.socket.value.oid
    ensures r.replaced == tb.replaced + (if tb.socket.Some? then [tb.socket.value] else [])
    ensures r.collections == tb.collections
    ensures Valid(tb) ==> Valid(r)
  {
    var replaced := match tb.socket case None => tb.replaced case Some(prev) => tb.replaced + [prev];
    ThunderBase(Some(Socket(tb.nextRef, [])), tb.collections, tb.nextRef + 1, replaced)
  }

  /** The client after a call, and the collection the call returned. */
  datatype Handle = Handle(tb: ThunderBase, coll: Collection)

  /** `collection(name)`: the collection object of that name, created on first use. */
  function GetCollection(tb: ThunderBase, name: string): (r: Handle)
    ensures name in r.tb.collections && r.coll == r.tb.collections[name]
    ensures Valid(tb) ==> r.coll.name == name
    ensures name in tb.collections ==> r == Handle(tb, tb.collections[name])
    ensures name !in tb.collections ==> r.coll.listeners == map[] && r.coll.oid == tb.nextRef
    ensures forall n :: n != name ==> (n in r.tb.collections <==> n in tb.collections)
    ensures forall n :: n != name && n in tb.collections ==> r.tb.collections[n] == tb.collections[n]
    ensures r.tb.socket == tb.socket
    ensures r.tb.replaced == tb.replaced
    ensures Valid(tb) ==> Valid(r.tb)
  {
    if name in tb.collections then Handle(tb, tb.collections[name])
    else
      var c := Collection(tb.nextRef, name, map[]);
      Handle(tb.(collections := tb.collections[name := c], nextRef := tb.nextRef + 1), c)
  }

  /** Memoisation: asking again for the same name returns the same object and
      changes nothing; different names give different objects. */
  lemma CollectionMemoised(tb: ThunderBase, name: string, other: string)
    requires Valid(tb)
    ensures var h := GetCollection(tb, name);
      GetCollection(h.tb, name) == h
    ensures var h := GetCollection(tb, name);
      other != name ==> GetCollection(h.tb, other).coll.oid != h.coll.oid
  {
    var h := GetCollection(tb, name);
    if other != name {
      var h2 := GetCollection(h.tb, other);
      if other !in h.tb.collections {
        assert h2.coll.oid == h.tb.nextRef;
      }
    }
  }

  /** What the server's message carries once parsed: the two fields the listener
      reads, absent when missing or not a string. */
  datatype Message = Message(collection: Option<string>, event: Option<string>)

  /** The test inside the listener closure: the message is about this collection,
      and the subscription is to every kind (`"*"`) or to exactly this one. */
  predicate Accepts(l: Listener, msg: Message)
  {
    msg.collection == Some(l.collection) && (l.event == "*" || msg.event == Some(l.event))
  }

  /** A wildcard subscription accepts every kind of its collection; any other
      subscription accepts exactly its own kind; no subscription accepts another
      collection's messages. */
  lemma AcceptsCases(l: Listener, msg: Message)
    ensures msg.collection != Some(l.collection) ==> !Accepts(l, msg)
    ensures l.event == "*" ==> (Accepts(l, msg) <==> msg.collection == Some(l.collection))
    ensures l.event != "*" ==>
      (Accepts(l, msg) <==> msg.collection == Some(l.collection) && msg.event == Some(l.event))
  {
  }

  /** Listener `l` calls `cb` for `msg`. */
  predicate Invokes(l: Listener, msg: Message, cb: CallbackRef)
  {
    l.callback == cb && Accepts(l, msg)
  }

  /** A message arriving on the socket: every listener runs, in the order added, and
      each calls its callback when it accepts the message. */
  function Dispatch(listeners: seq<Listener>, msg: Message): (calls: seq<CallbackRef>)
    ensures |calls| <= |listeners|
    ensures forall cb :: cb in calls <==> exists l :: l in listeners && Invokes(l, msg, cb)
    decreases |listeners|
  {
    if listeners == [] then []
    else
      var rest := Dispatch(listeners[1..], msg);
      var head := if Accepts(listeners[0], msg) then [listeners[0].callback] else [];
      assert forall l :: l in listeners <==> l == listeners[0] || l in listeners[1..];
      assert forall cb :: cb in head <==> Invokes(listeners[0], msg, cb);
      assert forall cb :: cb in head + rest <==> cb in head || cb in rest;
      head + rest
  }

  /** Listeners run in the order added: the calls for two lists of listeners, one
      after the other, are the calls for the first followed by those for the second.
      With the contract of `Dispatch` on a single listener (at most one call, and
      only when it accepts), this fixes every call, its multiplicity and its order. */
  lemma {:induction false} DispatchAppend(a: seq<Listener>, b: seq<Listener>, msg: Message)
    ensures Dispatch(a + b, msg) == Dispatch(a, msg) + Dispatch(b, msg)
    decreases |a|
  {
    if a == [] {
      assert a + b == b;
    } else {
      assert (a + b)[0] == a[0];
      assert (a + b)[1..] == a[1..] + b;
      DispatchAppend(a[1..], b, msg);
    }
  }

  /** `subscribe(event, callback)` on the collection of that name: throws when no
      socket exists and then registers nothing; otherwise adds a new listener to the
      socket and records it under the callback, replacing any earlier entry. */
  function Subscribe(tb: ThunderBase, name: string, event: string, cb: CallbackRef): (r: Result<ThunderBase, ClientError>)
    requires name in tb.collections
    ensures tb.socket.None? <==> r == Failure(NotConnected)
    ensures r.Success? ==>
      var l := Listener(tb.nextRef, tb.collections[name].name, event, cb);
      && r.value.socket == Some(tb.socket.value.(listeners := tb.socket.value.listeners + [l]))
      && r.value.collections == tb.collections[name := tb.collections[name].(listeners := tb.collections[name].listeners[cb := l])]
    ensures r.Success? ==> r.value.replaced == tb.replaced
    ensures r.Success? && Valid(tb) ==> Valid(r.value)
  {
    match tb.socket
    case None => Failure(NotConnected)
    case Some(socket) =>
      var coll := tb.collections[name];
      var l := Listener(tb.nextRef, coll.name, event, cb);
      Success(tb.(socket := Some(socket.(listeners := socket.listeners + [l])),
                  collections := tb.collections[name := coll.(listeners := coll.listeners[cb := l])],
                  nextRef := tb.nextRef + 1))
  }

  /** `removeEventListener`: drops the listener with that identity, if attached. */
  function RemoveListener(listeners: seq<Listener>, ref: ObjectRef): (r: seq<Listener>)
    ensures forall l :: l in r <==> l in listeners && l.ref != ref
    ensures IsSubsequence(r, listeners)
    decreases |listeners|
  {
    if listeners == [] then []
    else
      var rest := RemoveListener(listeners[1..], ref);
      assert forall l :: l in listeners <==> l == listeners[0] || l in listeners[1..];
      if listeners[0].ref == ref then rest
      else
        assert ([listeners[0]] + rest)[1..] == rest;
        [listeners[0]] + rest
  }

  /** The listeners that stay keep their order: removal from two lists, one after
      the other, is removal from each. */
  lemma {:induction false} RemoveListenerAppend(a: seq<Listener>, b: seq<Listener>, ref: ObjectRef)
    ensures RemoveListener(a + b, ref) == RemoveListener(a, ref) + RemoveListener(b, ref)
    decreases |a|
  {
    if a == [] {
      assert a + b == b;
    } else {
      assert (a + b)[0] == a[0];
      assert (a + b)[1..] == a[1..] + b;
      RemoveListenerAppend(a[1..], b, ref);
    }
  }

  /** `unsubscribe(callback)`: a known callback's listener is detached from the
      current socket and its entry deleted; an unknown callback changes nothing. */
  function Unsubscribe(tb: ThunderBase, name: string, cb: CallbackRef): (r: Result<ThunderBase, ClientError>)
    requires name in tb.collections
    ensures cb !in tb.collections[name].listeners ==> r == Success(tb)
    ensures cb in tb.collections[name].listeners && tb.socket.None? ==> r == Failure(NoSocket)
    ensures r.Success? ==>
      && name in r.value.collections
      && cb !in r.value.collections[name].listeners
      && r.value.collections[name].listeners == tb.collections[name].listeners - {cb}
    ensures r.Success? && cb in tb.collections[name].listeners ==>
      r.value.socket == Some(tb.socket.value.(listeners :=
        RemoveListener(tb.socket.value.listeners, tb.collections[name].listeners[cb].ref)))
    ensures r.Success? ==> forall n :: n != name ==>
      && (n in r.value.collections <==> n in tb.collections)
      && (n in tb.collections ==> r.value.collections[n] == tb.collections[n])
    ensures r.Success? ==> r.value.replaced == tb.replaced
    ensures r.Success? ==>
      && r.value.collections[name] == tb.collections[name].(listeners := tb.collections[name].listeners - {cb})
      && r.value.nextRef == tb.nextRef
    ensures r.Success? && Valid(tb) ==> Valid(r.value)
  {
    var coll := tb.collections[name];
    if cb !in coll.listeners then Success(tb)
    else
      match tb.socket
      case None => Failure(NoSocket)
      case Some(socket) =>
        var l := coll.listeners[cb];
        Success(tb.(socket := Some(socket.(listeners := RemoveListener(socket.listeners, l.ref))),
                    collections := tb.collections[name := coll.(listeners := coll.listeners - {cb})]))
  }

  /** Removing a listener that was never attached leaves the list as it was. */
  lemma {:induction false} RemoveAbsent(listeners: seq<Listener>, ref: ObjectRef)
    requires forall i :: 0 <= i < |listeners| ==> listeners[i].ref != ref
    ensures RemoveListener(listeners, ref) == listeners
    decreases |listeners|
  {
    if listeners != [] {
      RemoveAbsent(listeners[1..], ref);
    }
  }

  /** Unsubscribing a callback whose listener is not attached to the current socket,
      as after a reconnect, deletes its entry and leaves the socket's listeners as
      they were. */
  lemma UnsubscribeDetached(tb: ThunderBase, name: string, cb: CallbackRef)
    requires name in tb.collections && cb in tb.collections[name].listeners && tb.socket.Some?
    requires forall i :: 0 <= i < |tb.socket.value.listeners| ==>
      tb.socket.value.listeners[i].ref != tb.collections[name].listeners[cb].ref
    ensures var u := Unsubscribe(tb, name, cb);
      && u.Success?
      && u.value.socket == tb.socket
      && cb !in u.value.collections[name].listeners
  {
    RemoveAbsent(tb.socket.value.listeners, tb.collections[name].listeners[cb].ref);
  }

  /** Removing the listener just appended, whose identity is fresh, restores the list. */
  lemma {:induction false} RemoveAppended(listeners: seq<Listener>, l: Listener)
    requires forall i :: 0 <= i < |listeners| ==> listeners[i].ref != l.ref
    ensures RemoveListener(listeners + [l], l.ref) == listeners
    decreases |listeners|
  {
    if listeners == [] {
      assert listeners + [l] == [l];
    } else {
      assert (listeners + [l])[1..] == listeners[1..] + [l];
      RemoveAppended(listeners[1..], l);
    }
  }

  /** Subscribing a new callback and unsubscribing it again restores both the
      socket's listeners and the collection's map. */
  lemma SubscribeUnsubscribe(tb: ThunderBase, name: string, event: string, cb: CallbackRef)
    requires Valid(tb) && name in tb.collections && tb.socket.Some?
    requires cb !in tb.collections[name].listeners
    ensures var s := Subscribe(tb, name, event, cb);
      && s.Success?
      && var u := Unsubscribe(s.value, name, cb);
      && u.Success?
      && u.value.socket == tb.socket
      && u.value.collections == tb.collections
  {
    var s := Subscribe(tb, name, event, cb).value;
    var coll := tb.collections[name];
    var l := Listener(tb.nextRef, coll.name, event, cb);
    RemoveAppended(tb.socket.value.listeners, l);
    assert coll.listeners[cb := l] - {cb} == coll.listeners;
    assert coll.(listeners := coll.listeners) == coll;
  }

  /** Subscribing the same callback twice leaks the first listener: after one
      unsubscribe the first closure is still attached and still calls the callback. */
  lemma DoubleSubscribeLeaks(tb: ThunderBase, name: string, event: string, cb: CallbackRef, msg: Message)
    requires Valid(tb) && name in tb.collections && tb.socket.Some?
    requires msg.collection == Some(name) && (event == "*" || msg.event == Some(event))
    ensures var s1 := Subscribe(tb, name, event, cb);
      && s1.Success?
      && var s2 := Subscribe(s1.value, name, event, cb);
      && s2.Success?
      && var u := Unsubscribe(s2.value, name, cb);
      && u.Success?
      && cb !in u.value.collections[name].listeners
      && cb in Dispatch(u.value.socket.value.listeners, msg)
  {
    var s1 := Subscribe(tb, name, event, cb).value;
    var s2 := Subscribe(s1, name, event, cb).value;
    var u := Unsubscribe(s2, name, cb).value;
    var first := Listener(tb.nextRef, name, event, cb);
    var second := Listener(s1.nextRef, name, event, cb);
    assert first in s2.socket.value.listeners;
    assert s2.collections[name].listeners[cb] == second;
    assert first in u.socket.value.listeners;
    assert Invokes(first, msg, cb);
  }

  /** A callback subscribed twice is called twice per matching message, after the
      listeners that were already attached. */
  lemma DoubleSubscribeCallsTwice(tb: ThunderBase, name: string, event: string, cb: CallbackRef, msg: Message)
    requires Valid(tb) && name in tb.collections && tb.socket.Some?
    requires msg.collection == Some(name) && (event == "*" || msg.event == Some(event))
    ensures var s1 := Subscribe(tb, name, event, cb);
      && s1.Success?
      && var s2 := Subscribe(s1.value, name, event, cb);
      && s2.Success?
      && Dispatch(s2.value.socket.value.listeners, msg) == Dispatch(tb.socket.value.listeners, msg) + [cb, cb]
  {
    var s1 := Subscribe(tb, name, event, cb).value;
    var first := Listener(tb.nextRef, name, event, cb);
    var second := Listener(s1.nextRef, name, event, cb);
    var base := tb.socket.value.listeners;
    assert s1.socket.value.listeners == base + [first];
    DispatchAppend(base, [first], msg);
    DispatchAppend(base + [first], [second], msg);
    assert Dispatch([first], msg) == [cb];
    assert Dispatch([second], msg) == [cb];
  }

  /** A reconnect does not end a subscription: the listener stays on the replaced,
      still open socket, and `unsubscribe` afterwards works on the new socket only.
      The callback's entry is gone, yet a matching message on the old socket still
      calls it. */
  lemma ReconnectKeepsOldListener(tb: ThunderBase, name: string, event: string, cb: CallbackRef, msg: Message)
    requires Valid(tb) && name in tb.collections && tb.socket.Some?
    requires msg.collection == Some(name) && (event == "*" || msg.event == Some(event))
    ensures var s := Subscribe(tb, name, event, cb);
      && s.Success?
      && var u := Unsubscribe(Connect(s.value), name, cb);
      && u.Success?
      && cb !in u.value.collections[name].listeners
      && u.value.socket.value.listeners == []
      && |u.value.replaced| > 0
      && cb in Dispatch(u.value.replaced[|u.value.replaced| - 1].listeners, msg)
  {
    var s := Subscribe(tb, name, event, cb).value;
    var l := Listener(tb.nextRef, name, event, cb);
    var c := Connect(s);
    var u := Unsubscribe(c, name, cb).value;
    assert c.replaced[|c.replaced| - 1] == s.socket.value;
    assert l in s.socket.value.listeners;
    assert Invokes(l, msg, cb);
  }

  /** Object.prototype members visible through a plain object's property lookup. */
  const PrototypeMembers: set<string> := {
    "constructor", "hasOwnProperty", "isPrototypeOf", "propertyIsEnumerable",
    "toLocaleString", "toString", "valueOf", "__proto__",
    "__defineGetter__", "__defineSetter__", "__lookupGetter__", "__lookupSetter__"
  }

  /** What `this.collections[name]` yields on a plain object. */
  datatype Lookup = OwnCollection(coll: Collection) | InheritedMember(member: string)

  /** `collection(name)` as written: the cache is a plain object, so a name that is an
      inherited member finds that (truthy) member, which is returned instead of a
      collection and nothing is created. */
  function GetCollectionAsWritten(tb: ThunderBase, name: string): (r: (ThunderBase, Lookup))
    ensures name in tb.collections ==> r == (tb, OwnCollection(tb.collections[name]))
    ensures name !in tb.collections && name in PrototypeMembers ==> r == (tb, InheritedMember(name))
    ensures name !in tb.collections && name !in PrototypeMembers ==>
      r == (GetCollection(tb, name).tb, OwnCollection(GetCollection(tb, name).coll))
  {
    if name in tb.collections then (tb, OwnCollection(tb.collections[name]))
    else if name in PrototypeMembers then (tb, InheritedMember(name))
    else
      var h := GetCollection(tb, name);
      (h.tb, OwnCollection(h.coll))
  }

  /** A collection named "toString": as written the client hands back
      `Object.prototype.toString`, on which `subscribe` does not exist; with an
      own-property lookup it gets a new collection of that name. */
  lemma PrototypeNameCounterexample()
    ensures GetCollectionAsWritten(Fresh, "toString").1 == InheritedMember("toString")
    ensures GetCollection(Fresh, "toString").coll == Collection(0, "toString", map[])
  {
    assert "toString" in PrototypeMembers;
  }
}

=== FILE: pipeline.dfy ===
/** The server end to end: the poller drains the change log into the broadcast
    channel, and the broadcaster takes changes off the channel in order and
    writes each to every registered client. The channel is first-in first-out,
    so the changes reach the broadcaster in the order the poller forwarded them. */
module Pipeline {
  import opened Changes
  import opened Poller
  import opened Registry

  /** A client that stays registered while the log is drained receives every
      captured change exactly once, in identifier order, after its welcome. */
  lemma SubscriberSeesLogInOrder(log: Log, hub: ValidHub, rounds: seq<Round>, c: ConnId)
    requires c in hub.clients
    requires EventsOf(rounds) == Drain(log)
    requires forall j :: 0 <= j < |rounds| ==> rounds[j].writeOk(c)
    ensures Received(Distribute(hub, rounds), c) == Received(hub, c) + ChangeMessages(Events(log))
  {
    SubscriberReceivesAll(hub, rounds, c);
    DrainDeliversAll(log);
  }

  /** A fresh connection whose welcome succeeds and which stays connected while the
      log drains receives the welcome and then every change in identifier order. */
  lemma NewSubscriberTranscript(log: Log, hub: ValidHub, rounds: seq<Round>, c: ConnId)
    requires c !in hub.inbox
    requires EventsOf(rounds) == Drain(log)
    requires forall j :: 0 <= j < |rounds| ==> rounds[j].writeOk(c)
    ensures Received(Distribute(Accept(hub, c, true), rounds), c) == [Welcome] + ChangeMessages(Events(log))
  {
    SubscriberSeesLogInOrder(log, Accept(hub, c, true), rounds, c);
  }
}

=== FILE: poller.dfy ===
/** One tick of the change poller of main.go (`pollChanges`): read the oldest
    rows of the change log, forward each row that scans, then delete exactly the
    forwarded identifiers in one statement. The outcomes of the query, of each
    row's scan and of the delete are parameters. */
module Poller {
  import opened Sequences
  import opened Changes
  import opened SqlText

  /** The `LIMIT` of the poll query. */
  const BatchLimit: nat := 100

  /** Distinct positions of a log hold distinct identifiers. */
  lemma IdsDistinct(log: Log, i: nat, j: nat)
    requires i < |log| && j < |log| && i != j
    ensures log[i].id != log[j].id
  {
  }

  /** A subsequence of an identifier-sorted listing is itself sorted. */
  lemma {:induction false} SubsequenceSorted(sub: seq<ChangeRow>, s: seq<ChangeRow>)
    requires IsSubsequence(sub, s)
    requires SortedById(s)
    ensures SortedById(sub)
    decreases |s|
  {
    if s != [] {
      assert SortedById(s[1..]);
      if sub != [] && sub[0] == s[0] && IsSubsequence(sub[1..], s[1..]) {
        SubsequenceSorted(sub[1..], s[1..]);
        SubsequenceMembers(sub[1..], s[1..]);
        forall j | 0 < j < |sub|
          ensures sub[0].id < sub[j].id
        {
          assert sub[j] == sub[1..][j - 1];
          assert sub[j] in sub[1..];
          var k :| 0 <= k < |s[1..]| && s[1..][k] == sub[j];
          assert s[k + 1] == sub[j];
        }
      } else {
        SubsequenceSorted(sub, s[1..]);
      }
    }
  }

  /** `SELECT ... ORDER BY id ASC LIMIT 100`: the rows with the (at most) hundred
      smallest identifiers, in ascending order. */
  function Batch(log: Log): (b: Log)
    ensures |b| == if |log| < BatchLimit then |log| else BatchLimit
    ensures forall i :: 0 <= i < |log| ==> (log[i] in b <==> i < BatchLimit)
    ensures forall r, s :: r in b && s in log && s !in b ==> r.id < s.id
  {
    var n := if |log| < BatchLimit then |log| else BatchLimit;
    var b := log[..n];
    assert forall i :: 0 <= i < |log| && log[i] in b ==> i < n by {
      forall i | 0 <= i < |log| && log[i] in b
        ensures i < n
      {
        var j :| 0 <= j < n && b[j] == log[i];
        if i != j {
          IdsDistinct(log, i, j);
        }
      }
    }
    b
  }

  /** The rows the scan loop forwards to the broadcaster: those that scan, in order;
      a row that fails to scan is skipped and the loop goes on. */
  function Forward(batch: seq<ChangeRow>, scanOk: ChangeRow -> bool): (fwd: seq<ChangeRow>)
    ensures IsSubsequence(fwd, batch)
    ensures forall row :: row in fwd <==> row in batch && scanOk(row)
    decreases |batch|
  {
    if batch == [] then []
    else
      var rest := Forward(batch[1..], scanOk);
      assert forall row :: row in batch <==> row == batch[0] || row in batch[1..];
      if scanOk(batch[0]) then [batch[0]] + rest else rest
  }

  /** The identifiers of some rows, in order (the `processedIDs` slice). */
  function Ids(rows: seq<ChangeRow>): (r: seq<int64>)
    ensures |r| == |rows|
    ensures forall i :: 0 <= i < |rows| ==> r[i] == rows[i].id
  {
    seq(|rows|, i requires 0 <= i < |rows| => rows[i].id)
  }

  /** `DELETE FROM _changes WHERE id IN (?,...)` bound to `args`: the rows whose
      identifier is among the arguments leave the log, the others keep their order. */
  function DeleteWhere(log: Log, args: seq<Arg>): (r: Log)
    ensures IsSubsequence(r, log)
    ensures forall row :: row in r <==> row in log && Int64Arg(row.id) !in args
    decreases |log|
  {
    if log == [] then []
    else
      var rest := DeleteWhere(log[1..], args);
      assert forall row :: row in log <==> row == log[0] || row in log[1..];
      if Int64Arg(log[0].id) in args then rest
      else
        var r := [log[0]] + rest;
        assert IsSubsequence(r, log) by {
          assert r[1..] == rest;
        }
        SubsequenceSorted(r, log);
        r
  }

  /** How a tick ended. */
  datatype TickOutcome =
    | QueryFailed   // the query failed: the tick is skipped
    | Idle          // no row was forwarded, so no delete was issued
    | Delivered     // rows were forwarded and deleted
    | DeleteFailed  // rows were forwarded but the delete failed: they stay in the log

  /** The log after a tick, the events forwarded during it in order, and how it ended. */
  datatype TickResult = TickResult(log: Log, sent: seq<ChangeEvent>, outcome: TickOutcome)

  /** One iteration of the ticker loop. */
  function Tick(log: Log, queryOk: bool, scanOk: ChangeRow -> bool, deleteOk: bool): (t: TickResult)
    ensures |t.sent| <= BatchLimit
    ensures IsSubsequence(t.log, log)
    ensures !queryOk ==> t == TickResult(log, [], QueryFailed)
    ensures queryOk ==> t.sent == Events(Forward(Batch(log), scanOk))
    ensures !deleteOk ==> t.log == log
    ensures forall row :: row in log ==>
      (row !in t.log <==> queryOk && deleteOk && row in Batch(log) && scanOk(row))
    ensures forall row :: row in log && row !in t.log ==> ToEvent(row) in t.sent
  {
    if !queryOk then
      NothingRemoved(log);
      TickResult(log, [], QueryFailed)
    else
      var batch := Batch(log);
      var fwd := Forward(batch, scanOk);
      SubsequenceMembers(fwd, batch);
      SubsequenceLength(fwd, batch);
      if fwd == [] then
        assert forall row :: row in batch ==> !scanOk(row);
        NothingRemoved(log);
        TickResult(log, [], Idle)
      else if !deleteOk then
        NothingRemoved(log);
        TickResult(log, Events(fwd), DeleteFailed)
      else
        var args := IntsToInterface(Ids(fwd));
        var next := DeleteWhere(log, args);
        DeletesForwarded(log, fwd, args);
        TickResult(next, Events(fwd), Delivered)
  }

  /** The log is a subsequence of itself. */
  lemma {:induction false} NothingRemoved(log: seq<ChangeRow>)
    ensures IsSubsequence(log, log)
    decreases |log|
  {
    if log != [] {
      NothingRemoved(log[1..]);
    }
  }

  /** A subsequence is no longer than the sequence it was taken from. */
  lemma {:induction false} SubsequenceLength<T>(sub: seq<T>, s: seq<T>)
    requires IsSubsequence(sub, s)
    ensures |sub| <= |s|
    decreases |s|
  {
    if s != [] {
      if sub != [] && sub[0] == s[0] && IsSubsequence(sub[1..], s[1..]) {
        SubsequenceLength(sub[1..], s[1..]);
      } else {
        SubsequenceLength(sub, s[1..]);
      }
    }
  }

  /** Deleting by the forwarded identifiers removes exactly the forwarded rows:
      identifiers are unique in the log, so no other row shares one. */
  lemma DeletesForwarded(log: Log, fwd: seq<ChangeRow>, args: seq<Arg>)
    requires forall row :: row in fwd ==> row in log
    requires args == IntsToInterface(Ids(fwd))
    ensures forall row :: row in log ==> (Int64Arg(row.id) in args <==> row in fwd)
  {
    forall row | row in log
      ensures Int64Arg(row.id) in args <==> row in fwd
    {
      var ids := Ids(fwd);
      if Int64Arg(row.id) in args {
        assert row.id in ids;
        var j :| 0 <= j < |ids| && ids[j] == row.id;
        assert fwd[j] in fwd;
        var a :| 0 <= a < |log| && log[a] == row;
        var b :| 0 <= b < |log| && log[b] == fwd[j];
      }
    }
  }

  /** Re-delivery: after a failed delete the log is unchanged, so the next tick with
      the same scan outcomes forwards the very same events again. */
  lemma RedeliveryAfterDeleteFailure(log: Log, scanOk: ChangeRow -> bool, deleteOk: bool)
    requires Tick(log, true, scanOk, true).sent != []
    ensures var first := Tick(log, true, scanOk, false);
      && first.outcome == DeleteFailed
      && Tick(first.log, true, scanOk, deleteOk).sent == first.sent
  {
    var first := Tick(log, true, scanOk, false);
    assert Forward(Batch(log), scanOk) != [];
  }

  /** Head-of-line blocking: when no row of the batch scans, a tick forwards and
      deletes nothing, so the rows behind the batch are never reached. */
  lemma StuckBatch(log: Log, scanOk: ChangeRow -> bool, deleteOk: bool)
    requires forall row :: row in Batch(log) ==> !scanOk(row)
    ensures Tick(log, true, scanOk, deleteOk) == TickResult(log, [], Idle)
  {
    NoneForwarded(Batch(log), scanOk);
  }

  /** A batch none of whose rows scans forwards nothing. */
  lemma {:induction false} NoneForwarded(batch: seq<ChangeRow>, scanOk: ChangeRow -> bool)
    requires forall row :: row in batch ==> !scanOk(row)
    ensures Forward(batch, scanOk) == []
    decreases |batch|
  {
    if batch != [] {
      NoneForwarded(batch[1..], scanOk);
    }
  }

  /** Every row scans. */
  function AllScan(row: ChangeRow): bool { true }

  /** When every row scans, all of the batch is forwarded. */
  lemma {:induction false} ForwardAll(batch: seq<ChangeRow>)
    ensures Forward(batch, AllScan) == batch
    decreases |batch|
  {
    if batch != [] {
      ForwardAll(batch[1..]);
    }
  }

  /** Deleting the identifiers of a prefix of the log leaves the suffix. */
  lemma {:induction false} DeletePrefix(log: Log, args: seq<Arg>, k: nat)
    requires k <= |log|
    requires forall i :: 0 <= i < k ==> Int64Arg(log[i].id) in args
    requires forall i :: k <= i < |log| ==> Int64Arg(log[i].id) !in args
    ensures DeleteWhere(log, args) == log[k..]
    decreases |log|
  {
    if log != [] {
      var tail: Log := log[1..];
      if k > 0 {
        assert forall i :: 0 <= i < k - 1 ==> tail[i] == log[i + 1];
        DeletePrefix(tail, args, k - 1);
        assert log[k..] == tail[k - 1..];
      } else {
        DeletePrefix(tail, args, 0);
        assert log == [log[0]] + tail;
      }
    }
  }

  /** With every statement succeeding, a tick delivers the whole batch in order and
      the log loses exactly that batch. */
  lemma TickAllOk(log: Log)
    ensures var t := Tick(log, true, AllScan, true);
      var n := |Batch(log)|;
      && t.sent == Events(log[..n])
      && t.log == log[n..]
  {
    var batch := Batch(log);
    var n := |batch|;
    assert batch == log[..n];
    ForwardAll(batch);
    if batch != [] {
      var args := IntsToInterface(Ids(batch));
      forall i | 0 <= i < n
        ensures Int64Arg(log[i].id) in args
      {
        assert Ids(batch)[i] == log[i].id;
      }
      forall i | n <= i < |log|
        ensures Int64Arg(log[i].id) !in args
      {
        forall j | 0 <= j < n
          ensures Ids(batch)[j] != log[i].id
        {
          IdsDistinct(log, i, j);
        }
      }
      DeletePrefix(log, args, n);
    } else {
      assert log == [];
    }
  }

  /** The events forwarded by ticking until the log is empty, every statement succeeding. */
  function Drain(log: Log): (sent: seq<ChangeEvent>)
    decreases |log|
  {
    if log == [] then []
    else
      var t := Tick(log, true, AllScan, true);
      TickAllOk(log);
      t.sent + Drain(t.log)
  }

  /** Draining delivers every change exactly once and in identifier order. */
  lemma {:induction false} DrainDeliversAll(log: Log)
    ensures Drain(log) == Events(log)
    decreases |log|
  {
    if log != [] {
      var t := Tick(log, true, AllScan, true);
      TickAllOk(log);
      var n := |Batch(log)|;
      var rest: Log := log[n..];
      DrainDeliversAll(rest);
      assert log == log[..n] + rest;
      EventsAppend(log[..n], rest);
    }
  }

  /** `Events` distributes over concatenation. */
  lemma EventsAppend(a: seq<ChangeRow>, b: seq<ChangeRow>)
    ensures Events(a + b) == Events(a) + Events(b)
  {
  }
}

=== FILE: registry.dfy ===
/** The websocket side of main.go: the registry of connected clients
    (`handleConnections`) and the fan-out of each change to all of them
    (`broadcastChanges`). A connection is a number; what each connection has
    been sent successfully is its inbox. Whether a write succeeds is a
    parameter. The mutex that serialises registry updates is left out: every
    operation here is one critical section. */
module Registry {
  import opened Changes

  /** A websocket connection. */
  type ConnId = nat

  /** What the server writes to a connection. */
  datatype Message = Welcome | Change(event: ChangeEvent)

  /** The registered clients and, for every connection that ever got a message,
      the messages it was sent, in order. */
  datatype Hub = Hub(clients: set<ConnId>, inbox: map<ConnId, seq<Message>>)

  /** A registered client has received the welcome message, so it has an inbox. */
  type ValidHub = h: Hub | h.clients <= h.inbox.Keys witness Hub({}, map[])

  /** The messages a connection has received so far. */
  function Received(hub: Hub, c: ConnId): seq<Message>
  {
    if c in hub.inbox then hub.inbox[c] else []
  }

  /** The messages of a sequence of changes, in the same order. */
  function ChangeMessages(events: seq<ChangeEvent>): (r: seq<Message>)
    ensures |r| == |events|
    ensures forall i :: 0 <= i < |events| ==> r[i] == Change(events[i])
  {
    seq(|events|, i requires 0 <= i < |events| => Change(events[i]))
  }

  /** A new connection: the welcome message is written first, and only if that write
      succeeds is the connection registered. */
  function Accept(hub: ValidHub, c: ConnId, welcomeOk: bool): (r: ValidHub)
    ensures c in r.clients <==> welcomeOk || c in hub.clients
    ensures Received(r, c) == Received(hub, c) + (if welcomeOk then [Welcome] else [])
    ensures forall d :: d != c ==> (d in r.clients <==> d in hub.clients)
    ensures forall d :: d != c ==> Received(r, d) == Received(hub, d)
  {
    if !welcomeOk then hub
    else Hub(hub.clients + {c}, hub.inbox[c := Received(hub, c) + [Welcome]])
  }

  /** A failed read unregisters the connection; nothing it received is undone. */
  function ReadFailed(hub: ValidHub, c: ConnId): (r: ValidHub)
    ensures c !in r.clients
    ensures forall d :: d != c ==> (d in r.clients <==> d in hub.clients)
    ensures forall d :: Received(r, d) == Received(hub, d)
  {
    Hub(hub.clients - {c}, hub.inbox)
  }

  /** Unregistering twice is the same as unregistering once (Go's `delete` on a
      missing key does nothing). */
  lemma ReadFailedIdempotent(hub: ValidHub, c: ConnId)
    ensures ReadFailed(ReadFailed(hub, c), c) == ReadFailed(hub, c)
  {
    assert ReadFailed(hub, c).clients - {c} == hub.clients - {c};
  }

  /** A connection that registers and then fails to read is gone and was sent
      exactly the welcome message. */
  lemma RegisterThenDrop(hub: ValidHub, c: ConnId)
    requires c !in hub.inbox
    ensures var r := ReadFailed(Accept(hub, c, true), c);
      && c !in r.clients
      && Received(r, c) == [Welcome]
      && r.clients == hub.clients - {c}
  {
    var r := ReadFailed(Accept(hub, c, true), c);
    assert forall d :: d in r.clients <==> d in hub.clients - {c};
  }

  /** One change written to every registered client. A failing client is dropped
      and the loop goes on with the others. */
  function BroadcastStep(hub: ValidHub, ev: ChangeEvent, writeOk: ConnId -> bool): (r: ValidHub)
    ensures forall c :: c in r.clients <==> c in hub.clients && writeOk(c)
    ensures forall c ::
      Received(r, c) == Received(hub, c) + (if c in hub.clients && writeOk(c) then [Change(ev)] else [])
  {
    Hub(set c | c in hub.clients && writeOk(c),
        map c | c in hub.inbox ::
          if c in hub.clients && writeOk(c) then hub.inbox[c] + [Change(ev)] else hub.inbox[c])
  }

  /** One write of the broadcast loop: a client whose write succeeds gets the change
      appended to its inbox; a client whose write fails is closed and unregistered. */
  function WriteTo(hub: ValidHub, c: ConnId, ev: ChangeEvent, ok: bool): (r: ValidHub)
    requires c in hub.clients
    ensures forall d :: d in r.inbox <==> d in hub.inbox
    ensures forall d :: d in r.clients <==> d in hub.clients && (d == c ==> ok)
    ensures forall d :: Received(r, d) == Received(hub, d) + (if d == c && ok then [Change(ev)] else [])
  {
    if ok then Hub(hub.clients, hub.inbox[c := hub.inbox[c] + [Change(ev)]])
    else Hub(hub.clients - {c}, hub.inbox)
  }

  /** Two hubs with the same clients, the same connections and the same inboxes are equal. */
  lemma HubsEqual(a: ValidHub, b: ValidHub)
    requires forall c :: c in a.clients <==> c in b.clients
    requires forall c :: c in a.inbox <==> c in b.inbox
    requires forall c :: Received(a, c) == Received(b, c)
    ensures a == b
  {
    assert a.clients == b.clients;
    assert a.inbox.Keys == b.inbox.Keys;
    forall c | c in a.inbox
      ensures a.inbox[c] == b.inbox[c]
    {
      assert Received(a, c) == Received(b, c);
    }
    assert a.inbox == b.inbox;
  }

  /** The broadcast loop of `broadcastChanges` for one change: the clients are
      visited in an unspecified order (Go's map iteration), each exactly once. */
  method Broadcast(hub: ValidHub, ev: ChangeEvent, writeOk: ConnId -> bool)
    returns (next: ValidHub, attempted: seq<ConnId>)
    ensures next == BroadcastStep(hub, ev, writeOk)
    ensures |attempted| == |hub.clients|
    ensures forall c :: c in attempted <==> c in hub.clients
  {
    var pending := hub.clients;
    next := hub;
    attempted := [];
    while pending != {}
      invariant forall d :: d in pending ==> d in hub.clients
      invariant forall c :: c in attempted <==> c in hub.clients && c !in pending
      invariant |attempted| + |pending| == |hub.clients|
      invariant forall d :: d in next.inbox <==> d in hub.inbox
      invariant forall d :: d in next.clients <==> d in hub.clients && (d !in pending ==> writeOk(d))
      invariant forall d ::
        Received(next, d) == Received(hub, d) + (if d in hub.clients && d !in pending && writeOk(d) then [Change(ev)] else [])
      decreases |pending|
    {
      var c :| c in pending;
      next := WriteTo(next, c, ev, writeOk(c));
      attempted := attempted + [c];
      pending := pending - {c};
    }
    HubsEqual(next, BroadcastStep(hub, ev, writeOk));
  }

  /** One broadcast round: the change and which writes succeed. */
  datatype Round = Round(event: ChangeEvent, writeOk: ConnId -> bool)

  /** The changes of some rounds, in order. */
  function EventsOf(rounds: seq<Round>): (r: seq<ChangeEvent>)
    ensures |r| == |rounds|
    ensures forall i :: 0 <= i < |rounds| ==> r[i] == rounds[i].event
  {
    seq(|rounds|, i requires 0 <= i < |rounds| => rounds[i].event)
  }

  /** Successive broadcasts, one per change taken off the channel. */
  function Distribute(hub: ValidHub, rounds: seq<Round>): ValidHub
    decreases |rounds|
  {
    if rounds == [] then hub
    else Distribute(BroadcastStep(hub, rounds[0].event, rounds[0].writeOk), rounds[1..])
  }

  /** The number of rounds a connection's writes survive before the first failure. */
  function Survived(c: ConnId, rounds: seq<Round>): (k: nat)
    ensures k <= |rounds|
    ensures forall j :: 0 <= j < k ==> rounds[j].writeOk(c)
    ensures k < |rounds| ==> !rounds[k].writeOk(c)
    decreases |rounds|
  {
    if rounds == [] || !rounds[0].writeOk(c) then 0
    else 1 + Survived(c, rounds[1..])
  }

  /** A connection that is not registered receives nothing more and stays unregistered. */
  lemma {:induction false} DistributeUnregistered(hub: ValidHub, rounds: seq<Round>, c: ConnId)
    requires c !in hub.clients
    ensures Received(Distribute(hub, rounds), c) == Received(hub, c)
    ensures c !in Distribute(hub, rounds).clients
    decreases |rounds|
  {
    if rounds != [] {
      DistributeUnregistered(BroadcastStep(hub, rounds[0].event, rounds[0].writeOk), rounds[1..], c);
    }
  }

  /** No gaps and no reordering: a registered client receives the changes in the
      order they were broadcast, up to its first failed write, and nothing after it
      (it is unregistered from then on). */
  lemma {:induction false} DistributeRegistered(hub: ValidHub, rounds: seq<Round>, c: ConnId)
    requires c in hub.clients
    ensures Received(Distribute(hub, rounds), c)
      == Received(hub, c) + ChangeMessages(EventsOf(rounds)[..Survived(c, rounds)])
    ensures c in Distribute(hub, rounds).clients <==> Survived(c, rounds) == |rounds|
    decreases |rounds|, 1
  {
    if rounds == [] {
      assert EventsOf(rounds)[..0] == [];
    } else if rounds[0].writeOk(c) {
      FirstWriteSucceeds(hub, rounds, c);
    } else {
      FirstWriteFails(hub, rounds, c);
    }
  }

  /** The case of `DistributeRegistered` where the first write succeeds. */
  lemma {:induction false} FirstWriteSucceeds(hub: ValidHub, rounds: seq<Round>, c: ConnId)
    requires c in hub.clients && rounds != [] && rounds[0].writeOk(c)
    ensures Received(Distribute(hub, rounds), c)
      == Received(hub, c) + ChangeMessages(EventsOf(rounds)[..Survived(c, rounds)])
    ensures c in Distribute(hub, rounds).clients <==> Survived(c, rounds) == |rounds|
    decreases |rounds|, 0
  {
    var step := BroadcastStep(hub, rounds[0].event, rounds[0].writeOk);
    assert Distribute(hub, rounds) == Distribute(step, rounds[1..]);
    var first := [Change(rounds[0].event)];
    assert Received(step, c) == Received(hub, c) + first;
    var tail := ChangeMessages(EventsOf(rounds[1..])[..Survived(c, rounds[1..])]);
    DistributeRegistered(step, rounds[1..], c);
    MessagesCons(rounds, c);
    AppendAssoc(Received(hub, c), first, tail);
  }

  lemma AppendAssoc<T>(a: seq<T>, b: seq<T>, c: seq<T>)
    ensures a + b + c == a + (b + c)
  {
  }

  /** The case of `DistributeRegistered` where the first write fails. */
  lemma FirstWriteFails(hub: ValidHub, rounds: seq<Round>, c: ConnId)
    requires c in hub.clients && rounds != [] && !rounds[0].writeOk(c)
    ensures Received(Distribute(hub, rounds), c)
      == Received(hub, c) + ChangeMessages(EventsOf(rounds)[..Survived(c, rounds)])
    ensures c in Distribute(hub, rounds).clients <==> Survived(c, rounds) == |rounds|
  {
    var step := BroadcastStep(hub, rounds[0].event, rounds[0].writeOk);
    assert Distribute(hub, rounds) == Distribute(step, rounds[1..]);
    DistributeUnregistered(step, rounds[1..], c);
    assert EventsOf(rounds)[..0] == [];
  }

  /** Surviving the first round contributes its change ahead of the rest. */
  lemma MessagesCons(rounds: seq<Round>, c: ConnId)
    requires rounds != [] && rounds[0].writeOk(c)
    ensures Survived(c, rounds) == 1 + Survived(c, rounds[1..])
    ensures ChangeMessages(EventsOf(rounds)[..Survived(c, rounds)])
      == [Change(rounds[0].event)] + ChangeMessages(EventsOf(rounds[1..])[..Survived(c, rounds[1..])])
  {
    var k := Survived(c, rounds[1..]);
    assert EventsOf(rounds)[..k + 1] == [rounds[0].event] + EventsOf(rounds[1..])[..k];
    ChangeMessagesAppend([rounds[0].event], EventsOf(rounds[1..])[..k]);
  }

  /** `ChangeMessages` distributes over concatenation. */
  lemma ChangeMessagesAppend(a: seq<ChangeEvent>, b: seq<ChangeEvent>)
    ensures ChangeMessages(a + b) == ChangeMessages(a) + ChangeMessages(b)
  {
  }

  /** A registered client whose writes all succeed receives every change, in order. */
  lemma SubscriberReceivesAll(hub: ValidHub, rounds: seq<Round>, c: ConnId)
    requires c in hub.clients
    requires forall j :: 0 <= j < |rounds| ==> rounds[j].writeOk(c)
    ensures Received(Distribute(hub, rounds), c) == Received(hub, c) + ChangeMessages(EventsOf(rounds))
    ensures c in Distribute(hub, rounds).clients
  {
    DistributeRegistered(hub, rounds, c);
    assert EventsOf(rounds)[..|rounds|] == EventsOf(rounds);
  }

  /** One client's failure does not affect what another receives. */
  lemma FailureIsolated(hub: ValidHub, ev: ChangeEvent, writeOk: ConnId -> bool, bad: ConnId, good: ConnId)
    requires bad in hub.clients && good in hub.clients
    requires !writeOk(bad) && writeOk(good)
    ensures var r := BroadcastStep(hub, ev, writeOk);
      && bad !in r.clients && good in r.clients
      && Received(r, bad) == Received(hub, bad)
      && Received(r, good) == Received(hub, good) + [Change(ev)]
  {
  }
}

=== FILE: schema.dfy ===
/** Which catalog tables are tracked (main.go, `getTables`): tables whose name
    is not matched by `LIKE 'sqlite_%'` and is not the change log. */
module Schema {
  import opened Wrappers
  import opened Text
  import opened Sequences
  import opened Changes

  /** SQLite's `LIKE` with no `ESCAPE` clause and the default settings: `%` matches
      any run of characters, `_` exactly one character, and any other character
      matches itself up to ASCII case. */
  predicate Like(pattern: string, s: string)
    decreases |pattern| + |s|
  {
    if pattern == [] then s == []
    else if pattern[0] == '%' then Like(pattern[1..], s) || (s != [] && Like(pattern, s[1..]))
    else if pattern[0] == '_' then s != [] && Like(pattern[1..], s[1..])
    else s != [] && FoldAscii(pattern[0]) == FoldAscii(s[0]) && Like(pattern[1..], s[1..])
  }

  /** The pattern of the catalog query. Its `_` is a wildcard, not a literal underscore. */
  const InternalPattern: string := "sqlite_%"

  /** The prefix that `InternalPattern` spells out literally. */
  const InternalPrefix: string := "sqlite"

  /** A catalog name is tracked when it escapes the `LIKE` filter and is not the
      change log itself (`!=` compares exactly, with no case folding). */
  predicate IsTracked(name: string)
  {
    !Like(InternalPattern, name) && name != ChangesTable
  }

  /** `%` matches every string. */
  lemma {:induction false} LikeAnyRun(s: string)
    ensures Like("%", s)
    decreases |s|
  {
    if s != [] {
      LikeAnyRun(s[1..]);
    }
  }

  /** A wildcard-free pattern prefix must match the same number of characters, each up to ASCII case. */
  lemma {:induction false} LikeLiteralPrefix(lit: string, rest: string, s: string)
    requires '%' !in lit && '_' !in lit
    ensures Like(lit + rest, s) <==>
      |s| >= |lit| && (forall i :: 0 <= i < |lit| ==> FoldAscii(lit[i]) == FoldAscii(s[i]))
      && Like(rest, s[|lit|..])
    decreases |lit|
  {
    if lit == [] {
      assert lit + rest == rest;
    } else {
      var p := lit + rest;
      assert p[0] == lit[0];
      assert p[1..] == lit[1..] + rest;
      assert '%' !in lit[1..] && '_' !in lit[1..] by {
        assert forall x :: x in lit[1..] ==> x in lit;
      }
      if s != [] {
        LikeLiteralPrefix(lit[1..], rest, s[1..]);
        if |s| >= |lit| && FoldAscii(lit[0]) == FoldAscii(s[0]) {
          assert s[1..][|lit| - 1..] == s[|lit|..];
          assert (forall i :: 0 <= i < |lit| ==> FoldAscii(lit[i]) == FoldAscii(s[i])) <==>
            (forall i :: 0 <= i < |lit| - 1 ==> FoldAscii(lit[1..][i]) == FoldAscii(s[1..][i])) by {
            forall i | 0 <= i < |lit| - 1 ensures lit[1..][i] == lit[i + 1] && s[1..][i] == s[i + 1] { }
          }
        }
      }
    }
  }

  /** Exactly what the catalog filter drops: `sqlite`, in any ASCII case, followed by
      at least one more character. */
  lemma InternalPatternMatches(name: string)
    ensures Like(InternalPattern, name) <==>
      |name| >= 7 && forall i :: 0 <= i < 6 ==> FoldAscii(name[i]) == InternalPrefix[i]
  {
    assert InternalPattern == InternalPrefix + "_%";
    LikeLiteralPrefix(InternalPrefix, "_%", name);
    var rest := if |name| >= 6 then name[6..] else [];
    if |name| >= 6 {
      assert "_%"[1..] == "%";
      LikeAnyRun(if rest == [] then [] else rest[1..]);
      assert Like("_%", rest) <==> rest != [];
    }
    forall i | 0 <= i < 6 ensures FoldAscii(InternalPrefix[i]) == InternalPrefix[i] { }
  }

  /** The tracked names, stated without `LIKE`. */
  lemma TrackedExactly(name: string)
    ensures IsTracked(name) <==>
      name != ChangesTable
      && !(|name| >= 7 && forall i :: 0 <= i < 6 ==> FoldAscii(name[i]) == InternalPrefix[i])
  {
    InternalPatternMatches(name);
  }

  /** Because `_` is a wildcard, the filter also drops a user table such as `sqliteX`,
      and it ignores ASCII case; a bare `sqlite` survives. */
  lemma FilterExamples()
    ensures !IsTracked("sqlite_sequence") && !IsTracked("SQLite_stat1")
    ensures !IsTracked("sqliteX") && !IsTracked("_changes")
    ensures IsTracked("sqlite") && IsTracked("users")
  {
    TrackedExactly("sqlite_sequence");
    TrackedExactly("SQLite_stat1");
    TrackedExactly("sqliteX");
    TrackedExactly("sqlite");
    TrackedExactly("users");
    assert FoldAscii('u') != InternalPrefix[0];
  }

  /** One row of `sqlite_master`: its `type` and `name` columns. */
  datatype MasterRow = MasterRow(kind: string, name: string)

  /** The names of the catalog rows, in catalog order. */
  function Names(master: seq<MasterRow>): (r: seq<string>)
    ensures |r| == |master|
    ensures forall i :: 0 <= i < |master| ==> r[i] == master[i].name
  {
    seq(|master|, i requires 0 <= i < |master| => master[i].name)
  }

  /** The rows the catalog query returns: tables only, tracked names only, in catalog order. */
  function SelectTables(master: seq<MasterRow>): (r: seq<string>)
    ensures forall n :: n in r <==> MasterRow("table", n) in master && IsTracked(n)
    ensures IsSubsequence(r, Names(master))
    decreases |master|
  {
    if master == [] then []
    else
      var rest := SelectTables(master[1..]);
      assert Names(master)[1..] == Names(master[1..]);
      assert forall row :: row in master <==> row == master[0] || row in master[1..];
      if master[0].kind == "table" && IsTracked(master[0].name) then [master[0].name] + rest
      else rest
  }

  /** A table appended to the catalog, as `CREATE TABLE` does, is listed last when tracked. */
  lemma {:induction false} SelectTablesAppend(master: seq<MasterRow>, row: MasterRow)
    ensures SelectTables(master + [row])
      == SelectTables(master) + (if row.kind == "table" && IsTracked(row.name) then [row.name] else [])
    decreases |master|
  {
    if master == [] {
      assert [] + [row] == [row];
      assert [row][1..] == [];
    } else {
      assert (master + [row])[1..] == master[1..] + [row];
      SelectTablesAppend(master[1..], row);
    }
  }

  /** Reading the catalog failed (the query or a row scan). */
  datatype CatalogError = CatalogUnreadable

  /** `getTables`: `catalog` is the catalog as the query sees it, or `None` when the
      query or a row scan fails, which the function returns as its error. */
  function GetTables(catalog: Option<seq<MasterRow>>): (r: Result<seq<string>, CatalogError>)
    ensures r.Failure? <==> catalog.None?
    ensures r.Success? ==> forall n :: n in r.value <==> MasterRow("table", n) in catalog.value && IsTracked(n)
    ensures r.Success? ==> IsSubsequence(r.value, Names(catalog.value))
  {
    match catalog
    case None => Failure(CatalogUnreadable)
    case Some(master) => Success(SelectTables(master))
  }
}

=== FILE: sequences.dfy ===
/** Order-preserving selection of sequence elements. */
module Sequences {

  /** `sub` is obtained from `s` by deleting some elements and keeping the order of the rest:
      each element of `s` is either kept (it is the next element of `sub`) or dropped. */
  predicate IsSubsequence<T(==)>(sub: seq<T>, s: seq<T>)
    decreases |s|
  {
    if s == [] then sub == []
    else (sub != [] && sub[0] == s[0] && IsSubsequence(sub[1..], s[1..])) || IsSubsequence(sub, s[1..])
  }

  /** Every element of a subsequence occurs, in the sequence it was taken from. */
  lemma {:induction false} SubsequenceMembers<T>(sub: seq<T>, s: seq<T>)
    requires IsSubsequence(sub, s)
    ensures forall x :: x in sub ==> x in s
    decreases |s|
  {
    if s != [] {
      if sub != [] && sub[0] == s[0] && IsSubsequence(sub[1..], s[1..]) {
        SubsequenceMembers(sub[1..], s[1..]);
        assert forall x :: x in sub ==> x == sub[0] || x in sub[1..];
      } else {
        SubsequenceMembers(sub, s[1..]);
      }
    }
  }
}

=== FILE: sql_text.dfy ===
/** The SQL text the server builds (main.go): the `?` list of the batch delete,
    its argument list, the `json_object` argument list of a trigger, and the
    trigger and change-log DDL. Names are interpolated as they are, unescaped. */
module SqlText {
  import opened Wrappers
  import opened Text
  import opened Changes

  /** The three mutation kinds a trigger is installed for, in installation order. */
  const TriggerEvents: seq<string> := ["INSERT", "UPDATE", "DELETE"]

  // ---------------------------------------------------------------------------
  // placeholders and intsToInterface
  // ---------------------------------------------------------------------------

  /** `placeholders(n)`: nothing for a non-positive count, otherwise `n` question
      marks separated by single commas. */
  function Placeholders(n: int): (r: string)
    ensures n <= 0 ==> r == ""
    ensures n > 0 ==> |r| == 2 * n - 1
    ensures forall i :: 0 <= i < |r| ==> r[i] == (if i % 2 == 0 then '?' else ',')
  {
    if n <= 0 then ""
    else
      RepeatCommaMark(n - 1);
      "?" + Repeat(",?", n - 1)
  }

  /** `",?"` repeated alternates a comma and a question mark. */
  lemma {:induction false} RepeatCommaMark(k: nat)
    ensures forall i :: 0 <= i < |Repeat(",?", k)| ==>
      Repeat(",?", k)[i] == (if i % 2 == 0 then ',' else '?')
  {
    if k > 0 {
      RepeatCommaMark(k - 1);
      var r := Repeat(",?", k);
      assert r == ",?" + Repeat(",?", k - 1);
      forall i | 2 <= i < |r|
        ensures r[i] == (if i % 2 == 0 then ',' else '?')
      {
        assert r[i] == Repeat(",?", k - 1)[i - 2];
      }
    }
  }

  /** The list holds exactly one `?` per requested parameter. */
  lemma {:induction false} PlaceholderCount(n: nat)
    ensures CountChar('?', Placeholders(n)) == n
  {
    if n > 0 {
      CountCharAppend('?', "?", Repeat(",?", n - 1));
      RepeatMarkCount(n - 1);
    }
  }

  lemma {:induction false} RepeatMarkCount(k: nat)
    ensures CountChar('?', Repeat(",?", k)) == k
  {
    if k > 0 {
      CountCharAppend('?', ",?", Repeat(",?", k - 1));
      RepeatMarkCount(k - 1);
    }
  }

  /** A Go `interface{}` holding an `int64`, as passed to `Exec`. */
  datatype Arg = Int64Arg(v: int64)

  /** `intsToInterface(ints)`: each identifier boxed, in the same position. */
  function IntsToInterface(ints: seq<int64>): (r: seq<Arg>)
    ensures |r| == |ints|
    ensures forall v :: Int64Arg(v) in r <==> v in ints
  {
    var r := seq(|ints|, i requires 0 <= i < |ints| => Int64Arg(ints[i]));
    assert forall v :: v in ints ==> Int64Arg(v) in r by {
      forall v | v in ints ensures Int64Arg(v) in r {
        var i :| 0 <= i < |ints| && ints[i] == v;
        assert r[i] == Int64Arg(v);
      }
    }
    r
  }

  /** Unboxes the arguments again. */
  function ArgValues(args: seq<Arg>): seq<int64>
  {
    seq(|args|, i requires 0 <= i < |args| => args[i].v)
  }

  /** Boxing loses nothing: unboxing gives back the identifiers in order. */
  lemma BoxingRoundTrip(ints: seq<int64>)
    ensures ArgValues(IntsToInterface(ints)) == ints
  {
    var r := IntsToInterface(ints);
    forall i | 0 <= i < |ints|
      ensures ArgValues(r)[i] == ints[i]
    {
      assert Int64Arg(ints[i]) in r;
    }
  }

  /** The batch delete statement for `n` identifiers. The `?` list is spliced
      into the format before the table name is substituted. */
  function DeleteSql(n: int): string
  {
    Sprintf([DeleteKeyword, DeleteOpen + Placeholders(n) + DeleteClose], [ChangesTable])
  }

  const DeleteKeyword: string := "DELETE FROM "
  const DeleteOpen: string := " WHERE id IN ("
  const DeleteClose: string := ")"

  /** The delete statement binds exactly the boxed identifiers: it has one `?` per argument. */
  lemma DeleteSqlArity(ids: seq<int64>)
    ensures CountChar('?', DeleteSql(|ids|)) == |IntsToInterface(ids)|
  {
    var marks := Placeholders(|ids|);
    DeleteSqlUnfold(|ids|);
    DeleteSqlFixedParts();
    CountCharAppend('?', DeleteKeyword + ChangesTable, DeleteOpen + marks + DeleteClose);
    CountCharAppend('?', DeleteKeyword, ChangesTable);
    CountCharAppend('?', DeleteOpen + marks, DeleteClose);
    CountCharAppend('?', DeleteOpen, marks);
    PlaceholderCount(|ids|);
  }

  lemma DeleteSqlUnfold(n: int)
    ensures DeleteSql(n) == DeleteKeyword + ChangesTable + (DeleteOpen + Placeholders(n) + DeleteClose)
  {
    var tail := DeleteOpen + Placeholders(n) + DeleteClose;
    var format := [DeleteKeyword, tail];
    var args := [ChangesTable];
    assert format[1..] == [tail] && args[1..] == [];
    assert Extra([]) == "";
    assert Sprintf([tail], []) == tail + "" == tail;
    assert Sprintf(format, args) == DeleteKeyword + ChangesTable + Sprintf([tail], []);
  }

  /** The fixed parts of the delete statement hold no `?`. */
  lemma DeleteSqlFixedParts()
    ensures CountChar('?', DeleteKeyword) == 0 && CountChar('?', ChangesTable) == 0
    ensures CountChar('?', DeleteOpen) == 0 && CountChar('?', DeleteClose) == 0
  {
    KeywordHasNoMark();
    TableHasNoMark();
    OpenHasNoMark();
    CloseHasNoMark();
  }

  lemma KeywordHasNoMark()
    ensures CountChar('?', DeleteKeyword) == 0
  {
    assert '?' !in DeleteKeyword;
    CountCharAbsent('?', DeleteKeyword);
  }

  lemma TableHasNoMark()
    ensures CountChar('?', ChangesTable) == 0
  {
    assert '?' !in ChangesTable;
    CountCharAbsent('?', ChangesTable);
  }

  lemma OpenHasNoMark()
    ensures CountChar('?', DeleteOpen) == 0
  {
    assert '?' !in DeleteOpen;
    CountCharAbsent('?', DeleteOpen);
  }

  lemma CloseHasNoMark()
    ensures CountChar('?', DeleteClose) == 0
  {
    assert '?' !in DeleteClose;
    CountCharAbsent('?', DeleteClose);
  }

  // ---------------------------------------------------------------------------
  // buildJsonObject
  // ---------------------------------------------------------------------------

  /** The trigger row variable: the pre-image for `"DELETE"`, the post-image otherwise. */
  function RowImage(event: string): (r: string)
    ensures r == "OLD" <==> event == "DELETE"
    ensures r == "NEW" <==> event != "DELETE"
  {
    if event == "DELETE" then "OLD" else "NEW"
  }

  /** One `'col', X.col` argument pair. */
  function JsonPair(col: string, event: string): string
  {
    "'" + col + "', " + RowImage(event) + "." + col
  }

  /** One pair per column, in column order. */
  function JsonPairs(columns: seq<string>, event: string): (r: seq<string>)
    ensures |r| == |columns|
  {
    seq(|columns|, i requires 0 <= i < |columns| => JsonPair(columns[i], event))
  }

  /** `buildJsonObject(columns, event)`: the pairs joined by `", "`. */
  function BuildJsonObject(columns: seq<string>, event: string): (r: string)
    ensures r == "" <==> columns == []
  {
    var pairs := JsonPairs(columns, event);
    assert columns != [] ==> |Join(pairs, ", ")| > 0 by {
      if columns != [] {
        JoinStartsWithHead(pairs, ", ");
      }
    }
    Join(pairs, ", ")
  }

  lemma JoinStartsWithHead(parts: seq<string>, sep: string)
    requires parts != []
    ensures |Join(parts, sep)| >= |parts[0]|
    ensures Join(parts, sep)[..|parts[0]|] == parts[0]
  {
  }

  /** Splits `s` before its first quote. */
  function ReadName(s: string): (r: (string, string))
    ensures r.0 + r.1 == s
    ensures '\'' !in r.0
    ensures r.1 == [] || r.1[0] == '\''
    decreases |s|
  {
    if s == [] || s[0] == '\'' then ([], s)
    else
      var (name, rest) := ReadName(s[1..]);
      ([s[0]] + name, rest)
  }

  /** Recovers the column list from a `json_object` argument list: the inverse of
      `BuildJsonObject` for column names without a quote. */
  function ParseJsonObject(s: string, event: string): Option<seq<string>>
  {
    if s == [] then Some([]) else ParsePairs(s, RowImage(event))
  }

  /** Parses one or more `'col', X.col` pairs separated by `", "`. */
  function ParsePairs(s: string, image: string): Option<seq<string>>
    decreases |s|
  {
    if s == [] || s[0] != '\'' then None
    else
      var (col, rest) := ReadName(s[1..]);
      var expected := "', " + image + "." + col;
      if |rest| < |expected| || rest[..|expected|] != expected then None
      else
        var tail := rest[|expected|..];
        if tail == [] then Some([col])
        else if |tail| < 2 || tail[..2] != ", " then None
        else
          match ParsePairs(tail[2..], image)
          case None => None
          case Some(cols) => Some([col] + cols)
  }

  /** A name without a quote is read up to the quote that follows it. */
  lemma {:induction false} ReadNameStopsAtQuote(name: string, rest: string)
    requires '\'' !in name
    requires rest != [] && rest[0] == '\''
    ensures ReadName(name + rest) == (name, rest)
    decreases |name|
  {
    if name != [] {
      assert (name + rest)[1..] == name[1..] + rest;
      assert (name + rest)[0] == name[0];
      ReadNameStopsAtQuote(name[1..], rest);
      assert [name[0]] + name[1..] == name;
    } else {
      assert name + rest == rest;
    }
  }

  /** Every column gets exactly one pair, in column order: parsing the built
      argument list gives back the column list. */
  lemma BuildJsonObjectRoundTrip(columns: seq<string>, event: string)
    requires forall i :: 0 <= i < |columns| ==> '\'' !in columns[i]
    ensures ParseJsonObject(BuildJsonObject(columns, event), event) == Some(columns)
  {
    if columns != [] {
      ParsePairsJoin(columns, RowImage(event), event);
    }
  }

  lemma {:induction false} ParsePairsJoin(columns: seq<string>, image: string, event: string)
    requires columns != []
    requires image == RowImage(event)
    requires forall i :: 0 <= i < |columns| ==> '\'' !in columns[i]
    ensures ParsePairs(Join(JsonPairs(columns, event), ", "), image) == Some(columns)
    decreases |columns|
  {
    var pairs := JsonPairs(columns, event);
    var col := columns[0];
    var expected := "', " + image + "." + col;
    var tail := if |columns| == 1 then "" else ", " + Join(JsonPairs(columns[1..], event), ", ");
    if |columns| > 1 {
      assert pairs[1..] == JsonPairs(columns[1..], event);
    }
    var s := Join(pairs, ", ");
    assert s == "'" + col + expected + tail;
    assert s[1..] == col + (expected + tail);
    assert s[0] == '\'';
    ReadNameStopsAtQuote(col, expected + tail);
    assert ReadName(s[1..]) == (col, expected + tail);
    assert (expected + tail)[..|expected|] == expected;
    assert (expected + tail)[|expected|..] == tail;
    if |columns| == 1 {
      assert ParsePairs(s, image) == Some([col]);
      assert columns == [col];
    } else {
      assert tail[..2] == ", ";
      assert tail[2..] == Join(JsonPairs(columns[1..], event), ", ");
      ParsePairsJoin(columns[1..], image, event);
      assert ParsePairs(s, image) == Some([col] + columns[1..]);
      assert [col] + columns[1..] == columns;
    }
  }

  // ---------------------------------------------------------------------------
  // Trigger and change-log DDL
  // ---------------------------------------------------------------------------

  const NewLine: string := "\n"
  const Indent12: string := "            "
  const Indent16: string := Indent12 + "    "
  const Indent20: string := Indent16 + "    "
  const CreateKeyword: string := "CREATE TRIGGER IF NOT EXISTS "
  const TriggerSuffix: string := "_trigger"
  const AfterKeyword: string := "AFTER "
  const OnKeyword: string := " ON "
  const InsertKeyword: string := "INSERT INTO "
  const ChangesColumns: string := " (collection, event, data)"
  const ValuesOpen: string := "VALUES ('"
  const ValuesSep: string := "', '"
  const JsonOpen: string := "', json_object("
  const ValuesClose: string := "));"

  /** The name a trigger is created under: `<table>_<EVENT>_trigger`. */
  function TriggerName(table: string, event: string): string
  {
    table + "_" + event + TriggerSuffix
  }

  /** Where the table, the separator, the kind and the suffix sit inside a trigger name. */
  lemma TriggerNameParts(table: string, event: string)
    requires |event| == 6
    ensures |TriggerName(table, event)| == |table| + 15
    ensures TriggerName(table, event)[..|table|] == table
    ensures TriggerName(table, event)[|table|] == '_'
    ensures TriggerName(table, event)[|table| + 1..|table| + 7] == event
    ensures TriggerName(table, event)[|table| + 7..] == "_trigger"
  {
    var n := TriggerName(table, event);
    assert n == table + ("_" + event + TriggerSuffix);
    assert ("_" + event + TriggerSuffix)[1..7] == event;
  }

  /** The trigger names of different (table, kind) pairs never collide, because
      every kind name has six letters. */
  lemma TriggerNamesDistinct(t1: string, e1: string, t2: string, e2: string)
    requires e1 in TriggerEvents && e2 in TriggerEvents
    requires t1 != t2 || e1 != e2
    ensures TriggerName(t1, e1) != TriggerName(t2, e2)
  {
    TriggerNameParts(t1, e1);
    TriggerNameParts(t2, e2);
  }

  /** The trigger statement format of main.go, split at its eight `%s` verbs. */
  const TriggerF0: string := NewLine + Indent16 + CreateKeyword
  const TriggerF1: string := "_"
  const TriggerF2: string := TriggerSuffix + NewLine + Indent16 + AfterKeyword
  const TriggerF3: string := OnKeyword
  const TriggerF4: string := NewLine + Indent16 + "BEGIN" + NewLine + Indent20 + InsertKeyword
  const TriggerF5: string := ChangesColumns + NewLine + Indent20 + ValuesOpen
  const TriggerF6: string := ValuesSep
  const TriggerF7: string := JsonOpen
  const TriggerF8: string := ValuesClose + NewLine + Indent16 + "END;" + NewLine + Indent12
  const TriggerFormat: seq<string> :=
    [TriggerF0, TriggerF1, TriggerF2, TriggerF3, TriggerF4, TriggerF5, TriggerF6, TriggerF7, TriggerF8]

  /** The trigger statement for one table and mutation kind. */
  function TriggerSql(table: string, event: string, columns: seq<string>): string
  {
    Sprintf(TriggerFormat,
      [table, event, event, table, ChangesTable, table, event, BuildJsonObject(columns, event)])
  }

  /** The eight arguments land in the eight verbs in order. */
  lemma TriggerSqlSubstitution(table: string, event: string, columns: seq<string>)
    ensures TriggerSql(table, event, columns) ==
      TriggerF0 + table + (TriggerF1 + event + (TriggerF2 + event + (TriggerF3 + table
      + (TriggerF4 + ChangesTable + (TriggerF5 + table + (TriggerF6 + event
      + (TriggerF7 + BuildJsonObject(columns, event) + TriggerF8)))))))
  {
    var f := TriggerFormat;
    var json := BuildJsonObject(columns, event);
    assert Extra([]) == "";
    assert Sprintf(f[8..], []) == TriggerF8;
    assert Sprintf(f[7..], [json]) == TriggerF7 + json + TriggerF8;
    assert f[6..][1..] == f[7..];
    assert Sprintf(f[6..], [event, json]) == TriggerF6 + event + Sprintf(f[7..], [json]);
    assert f[5..][1..] == f[6..];
    assert Sprintf(f[5..], [table, event, json]) == TriggerF5 + table + Sprintf(f[6..], [event, json]);
    assert f[4..][1..] == f[5..];
    assert Sprintf(f[4..], [ChangesTable, table, event, json])
      == TriggerF4 + ChangesTable + Sprintf(f[5..], [table, event, json]);
    assert f[3..][1..] == f[4..];
    assert Sprintf(f[3..], [table, ChangesTable, table, event, json])
      == TriggerF3 + table + Sprintf(f[4..], [ChangesTable, table, event, json]);
    assert f[2..][1..] == f[3..];
    assert Sprintf(f[2..], [event, table, ChangesTable, table, event, json])
      == TriggerF2 + event + Sprintf(f[3..], [table, ChangesTable, table, event, json]);
    assert f[1..][1..] == f[2..];
    assert Sprintf(f[1..], [event, event, table, ChangesTable, table, event, json])
      == TriggerF1 + event + Sprintf(f[2..], [event, table, ChangesTable, table, event, json]);
  }

  /** What the generated trigger does: it is created under `TriggerName` only if
      absent, fires after the given kind of write on the table, and appends to the
      change log one row holding the table name, the kind and the `json_object` of
      the row image. */
  lemma TriggerSqlShape(table: string, event: string, columns: seq<string>)
    ensures Contains(TriggerSql(table, event, columns), CreateKeyword + TriggerName(table, event) + NewLine)
    ensures Contains(TriggerSql(table, event, columns), AfterKeyword + event + OnKeyword + table + NewLine)
    ensures Contains(TriggerSql(table, event, columns), InsertKeyword + ChangesTable + ChangesColumns)
    ensures Contains(TriggerSql(table, event, columns),
      ValuesOpen + table + ValuesSep + event + JsonOpen + BuildJsonObject(columns, event) + ValuesClose)
  {
    TriggerCreates(table, event, columns);
    TriggerFiresAfter(table, event, columns);
    TriggerInsertsChange(table, event, columns);
    TriggerRecordsRow(table, event, columns);
  }

  lemma TriggerCreates(table: string, event: string, columns: seq<string>)
    ensures Contains(TriggerSql(table, event, columns), CreateKeyword + TriggerName(table, event) + NewLine)
  {
    TriggerSqlSubstitution(table, event, columns);
    CreateClause(TriggerF0, TriggerF1, TriggerF2, TriggerF3, TriggerF4, TriggerF5, TriggerF6, TriggerF7,
      TriggerF8, table, event, ChangesTable, BuildJsonObject(columns, event),
      NewLine + Indent16, CreateKeyword, TriggerSuffix, NewLine, Indent16, AfterKeyword);
  }

  lemma TriggerFiresAfter(table: string, event: string, columns: seq<string>)
    ensures Contains(TriggerSql(table, event, columns), AfterKeyword + event + OnKeyword + table + NewLine)
  {
    TriggerSqlSubstitution(table, event, columns);
    AfterClause(TriggerF0, TriggerF1, TriggerF2, TriggerF3, TriggerF4, TriggerF5, TriggerF6, TriggerF7,
      TriggerF8, table, event, ChangesTable, BuildJsonObject(columns, event),
      TriggerSuffix, NewLine, Indent16, AfterKeyword, OnKeyword, "BEGIN", Indent20, InsertKeyword);
  }

  lemma TriggerInsertsChange(table: string, event: string, columns: seq<string>)
    ensures Contains(TriggerSql(table, event, columns), InsertKeyword + ChangesTable + ChangesColumns)
  {
    TriggerSqlSubstitution(table, event, columns);
    InsertClause(TriggerF0, TriggerF1, TriggerF2, TriggerF3, TriggerF4, TriggerF5, TriggerF6, TriggerF7,
      TriggerF8, table, event, ChangesTable, BuildJsonObject(columns, event),
      NewLine + Indent16 + "BEGIN" + NewLine + Indent20, InsertKeyword, ChangesColumns,
      NewLine + Indent20, ValuesOpen);
  }

  lemma TriggerRecordsRow(table: string, event: string, columns: seq<string>)
    ensures Contains(TriggerSql(table, event, columns),
      ValuesOpen + table + ValuesSep + event + JsonOpen + BuildJsonObject(columns, event) + ValuesClose)
  {
    TriggerSqlSubstitution(table, event, columns);
    ValuesClause(TriggerF0, TriggerF1, TriggerF2, TriggerF3, TriggerF4, TriggerF5, TriggerF6, TriggerF7,
      TriggerF8, table, event, ChangesTable, BuildJsonObject(columns, event),
      ChangesColumns + NewLine + Indent20, ValuesOpen, ValuesClose,
      NewLine + Indent16 + "END;" + NewLine + Indent12);
  }

  /** The statement `Sprintf` builds from nine format pieces and eight arguments.
      It and the four clause lemmas below take the pieces as plain parameters, so
      that the solver reasons about concatenation without unfolding the long
      string constants of the trigger format; this keeps the trigger-text proofs
      cheap. */
  function Substituted(f0: string, f1: string, f2: string, f3: string, f4: string, f5: string,
                       f6: string, f7: string, f8: string, t: string, e: string, ct: string,
                       j: string): string
  {
    f0 + t + (f1 + e + (f2 + e + (f3 + t + (f4 + ct + (f5 + t + (f6 + e + (f7 + j + f8)))))))
  }

  lemma CreateClause(f0: string, f1: string, f2: string, f3: string, f4: string, f5: string,
                     f6: string, f7: string, f8: string, t: string, e: string, ct: string,
                     j: string, a: string, k: string, suf: string, nl: string, i: string, ak: string)
    requires f0 == a + k && f1 == "_" && f2 == suf + nl + i + ak
    ensures Contains(Substituted(f0, f1, f2, f3, f4, f5, f6, f7, f8, t, e, ct, j),
      k + (t + "_" + e + suf) + nl)
  {
    var clause := k + (t + "_" + e + suf) + nl;
    var rest := f3 + t + (f4 + ct + (f5 + t + (f6 + e + (f7 + j + f8))));
    assert Substituted(f0, f1, f2, f3, f4, f5, f6, f7, f8, t, e, ct, j)
      == a + clause + (i + ak + e + rest);
    ContainsMiddle(a, clause, i + ak + e + rest);
  }

  lemma AfterClause(f0: string, f1: string, f2: string, f3: string, f4: string, f5: string,
                    f6: string, f7: string, f8: string, t: string, e: string, ct: string,
                    j: string, suf: string, nl: string, i: string, ak: string, on: string,
                    bg: string, i2: string, ik: string)
    requires f2 == suf + nl + i + ak && f3 == on && f4 == nl + i + bg + nl + i2 + ik
    ensures Contains(Substituted(f0, f1, f2, f3, f4, f5, f6, f7, f8, t, e, ct, j),
      ak + e + on + t + nl)
  {
    var clause := ak + e + on + t + nl;
    var r := f5 + t + (f6 + e + (f7 + j + f8));
    var w := i + bg + nl + i2 + ik + ct + r;
    assert f4 + ct + r == nl + w;
    assert f3 + t + (nl + w) == on + t + nl + w;
    var x := suf + nl + i;
    assert f2 + e + (on + t + nl + w) == x + clause + w;
    ContainsMiddle(x, clause, w);
    ContainsExtend(f1 + e, x + clause + w, [], clause);
    assert f1 + e + (x + clause + w) + [] == f1 + e + (x + clause + w);
    ContainsExtend(f0 + t, f1 + e + (x + clause + w), [], clause);
    assert f0 + t + (f1 + e + (x + clause + w)) + [] == f0 + t + (f1 + e + (x + clause + w));
  }

  lemma InsertClause(f0: string, f1: string, f2: string, f3: string, f4: string, f5: string,
                     f6: string, f7: string, f8: string, t: string, e: string, ct: string,
                     j: string, a: string, ik: string, cols: string, b: string, vo: string)
    requires f4 == a + ik && f5 == cols + b + vo
    ensures Contains(Substituted(f0, f1, f2, f3, f4, f5, f6, f7, f8, t, e, ct, j), ik + ct + cols)
  {
    var clause := ik + ct + cols;
    var rest := b + vo + t + (f6 + e + (f7 + j + f8));
    assert f5 + t + (f6 + e + (f7 + j + f8)) == cols + rest;
    assert f4 + ct + (cols + rest) == a + clause + rest;
    ContainsMiddle(a, clause, rest);
    var before := f0 + t + (f1 + e + (f2 + e + (f3 + t)));
    assert Substituted(f0, f1, f2, f3, f4, f5, f6, f7, f8, t, e, ct, j) == before + (a + clause + rest) + [];
    ContainsExtend(before, a + clause + rest, [], clause);
  }

  lemma ValuesClause(f0: string, f1: string, f2: string, f3: string, f4: string, f5: string,
                     f6: string, f7: string, f8: string, t: string, e: string, ct: string,
                     j: string, a: string, vo: string, vc: string, b: string)
    requires f5 == a + vo && f8 == vc + b
    ensures Contains(Substituted(f0, f1, f2, f3, f4, f5, f6, f7, f8, t, e, ct, j),
      vo + t + f6 + e + f7 + j + vc)
  {
    var clause := vo + t + f6 + e + f7 + j + vc;
    var x7 := f7 + j + vc;
    assert f7 + j + f8 == x7 + b;
    var x6 := f6 + e + x7;
    assert f6 + e + (f7 + j + f8) == x6 + b;
    assert f5 + t + (f6 + e + (f7 + j + f8)) == a + (vo + t + x6) + b;
    assert vo + t + x6 == clause;
    var before := f0 + t + (f1 + e + (f2 + e + (f3 + t + (f4 + ct))));
    assert Substituted(f0, f1, f2, f3, f4, f5, f6, f7, f8, t, e, ct, j)
      == f0 + t + (f1 + e + (f2 + e + (f3 + t + (f4 + ct + (a + clause + b)))));
    assert Substituted(f0, f1, f2, f3, f4, f5, f6, f7, f8, t, e, ct, j) == before + a + clause + b;
    ContainsMiddle(before + a, clause, b);
  }

  /** The statement that creates the change-log table if it is missing. */
  function CreateChangesSql(): string
  {
    Sprintf([
      "\n        CREATE TABLE IF NOT EXISTS ",
      " (\n            id INTEGER PRIMARY KEY AUTOINCREMENT,\n            collection TEXT NOT NULL,\n"
        + "            event TEXT NOT NULL,\n            data JSON NOT NULL,\n"
        + "            created_at TIMESTAMP DEFAULT CURRENT_TIMESTAMP\n        )\n    "
    ], [ChangesTable])
  }
}

=== FILE: text.dfy ===
/** The parts of Go's `strings` and `fmt` packages that the SQL builders use,
    over strings as sequences of characters. */
module Text {

  /** `strings.Repeat(s, count)` for a non-negative count. */
  function Repeat(s: string, count: nat): (r: string)
    ensures |r| == count * |s|
  {
    if count == 0 then "" else s + Repeat(s, count - 1)
  }

  /** `strings.Join(parts, sep)`: the parts in order, with `sep` between neighbours. */
  function Join(parts: seq<string>, sep: string): string
    decreases |parts|
  {
    if |parts| == 0 then ""
    else if |parts| == 1 then parts[0]
    else parts[0] + sep + Join(parts[1..], sep)
  }

  /** Number of occurrences of the character `c` in `s`. */
  function CountChar(c: char, s: string): nat
    decreases |s|
  {
    if s == [] then 0 else (if s[0] == c then 1 else 0) + CountChar(c, s[1..])
  }

  /** Occurrences in a concatenation add up. */
  lemma {:induction false} CountCharAppend(c: char, a: string, b: string)
    ensures CountChar(c, a + b) == CountChar(c, a) + CountChar(c, b)
    decreases |a|
  {
    if a == [] {
      assert a + b == b;
    } else {
      assert (a + b)[1..] == a[1..] + b;
      CountCharAppend(c, a[1..], b);
    }
  }

  /** A character that does not occur is counted zero times. */
  lemma {:induction false} CountCharAbsent(c: char, s: string)
    requires c !in s
    ensures CountChar(c, s) == 0
    decreases |s|
  {
    if s != [] {
      assert s[0] != c;
      assert c !in s[1..] by {
        assert forall x :: x in s[1..] ==> x in s;
      }
      CountCharAbsent(c, s[1..]);
    }
  }

  /** `sub` occurs in `s` starting at index `i`. */
  predicate OccursAt(s: string, sub: string, i: int)
  {
    0 <= i <= |s| - |sub| && s[i..i + |sub|] == sub
  }

  /** `sub` occurs somewhere inside `s`. */
  predicate Contains(s: string, sub: string)
  {
    exists i :: 0 <= i <= |s| - |sub| && OccursAt(s, sub, i)
  }

  /** A string placed between two others is contained in the concatenation. */
  lemma ContainsMiddle(a: string, sub: string, b: string)
    ensures Contains(a + sub + b, sub)
  {
    var s := a + sub + b;
    assert OccursAt(s, sub, |a|);
  }

  /** Text around an occurrence does not hide it. */
  lemma ContainsExtend(a: string, s: string, b: string, sub: string)
    requires Contains(s, sub)
    ensures Contains(a + s + b, sub)
  {
    var i :| 0 <= i <= |s| - |sub| && OccursAt(s, sub, i);
    assert (a + s + b)[|a| + i..|a| + i + |sub|] == s[i..i + |sub|];
    assert OccursAt(a + s + b, sub, |a| + i);
  }

  /** `fmt.Sprintf` on a format whose only verbs are `%s`: `pieces` is the format
      split at each verb, so `|pieces| - 1` verbs take the arguments in order.
      A verb without an argument prints `%!s(MISSING)` and unused arguments are
      listed in a trailing `%!(EXTRA ...)`, as Go does. */
  function Sprintf(pieces: seq<string>, args: seq<string>): string
    decreases |pieces|
  {
    if |pieces| <= 1 then (if pieces == [] then "" else pieces[0]) + Extra(args)
    else if args == [] then pieces[0] + "%!s(MISSING)" + Sprintf(pieces[1..], [])
    else pieces[0] + args[0] + Sprintf(pieces[1..], args[1..])
  }

  /** Go's report of arguments left over after the last verb. */
  function Extra(args: seq<string>): string
  {
    if args == [] then ""
    else "%!(EXTRA " + Join(seq(|args|, i requires 0 <= i < |args| => "string=" + args[i]), ", ") + ")"
  }

  /** SQLite's default case folding for `LIKE`: only ASCII upper-case letters are folded. */
  function FoldAscii(c: char): (r: char)
    ensures 'A' <= c <= 'Z' ==> r as int == c as int + 32
    ensures !('A' <= c <= 'Z') ==> r == c
  {
    if 'A' <= c <= 'Z' then (c as int + 32) as char else c
  }
}

=== FILE: triggers.dfy ===
/** The trigger-installation pass of main.go (`initDatabase`): create the change
    log if missing, list the tracked tables, and for each table in order install an
    INSERT, an UPDATE and a DELETE trigger, stopping at the first failure.
    The database's triggers are a map from trigger name to the statement that
    created it; `CREATE TRIGGER IF NOT EXISTS` adds an entry only when the name
    is absent. Whether a statement succeeds is the parameter `execOk`. */
module Triggers {
  import opened Wrappers
  import opened Changes
  import opened SqlText
  import opened Schema
  import opened Text

  /** The statements the installation pass executes. */
  datatype Statement =
    | CreateChangesTable
    | CreateTrigger(table: string, event: string, columns: seq<string>)

  /** The SQL text of a statement. */
  function SqlOf(stmt: Statement): string
  {
    match stmt
    case CreateChangesTable => CreateChangesSql()
    case CreateTrigger(table, event, columns) => TriggerSql(table, event, columns)
  }

  /** Installed triggers: name to the statement that created it. */
  type TriggerSet = map<string, Statement>

  /** The errors `initDatabase` returns, one per `return fmt.Errorf(...)`. */
  datatype InitError =
    | ChangesTableFailed
    | TablesFailed
    | ColumnsFailed(table: string)
    | TriggerFailed(table: string, event: string)

  /** The triggers after a pass, and what the pass returned. */
  datatype Installed = Installed(triggers: TriggerSet, outcome: Outcome<InitError>)

  /** Every trigger of `before` is still there, with the same definition. */
  predicate Preserves(before: TriggerSet, after: TriggerSet)
  {
    forall n :: n in before ==> n in after && after[n] == before[n]
  }

  /** `CREATE TRIGGER IF NOT EXISTS name ...`: set insertion on names; an existing
      trigger of that name keeps its old definition. */
  function CreateIfNotExists(triggers: TriggerSet, name: string, stmt: Statement): (r: TriggerSet)
    ensures r.Keys == triggers.Keys + {name}
    ensures Preserves(triggers, r)
    ensures name !in triggers ==> r[name] == stmt
  {
    if name in triggers then triggers else triggers[name := stmt]
  }

  /** The trigger names of one table for the given kinds. */
  function NamesOf(table: string, events: seq<string>): set<string>
    decreases |events|
  {
    if events == [] then {} else {TriggerName(table, events[0])} + NamesOf(table, events[1..])
  }

  /** The trigger names of every table for all three kinds. */
  function TrackedNames(tables: seq<string>): set<string>
    decreases |tables|
  {
    if tables == [] then {} else NamesOf(tables[0], TriggerEvents) + TrackedNames(tables[1..])
  }

  /** The names of one table are those of its kinds. */
  lemma {:induction false} NamesOfMembers(table: string, events: seq<string>, n: string)
    ensures n in NamesOf(table, events) <==> exists e :: e in events && n == TriggerName(table, e)
    decreases |events|
  {
    if events != [] {
      NamesOfMembers(table, events[1..], n);
      assert forall e :: e in events <==> e == events[0] || e in events[1..];
    }
  }

  /** The tracked names are the names of every table's three kinds. */
  lemma {:induction false} TrackedNamesMembers(tables: seq<string>, n: string)
    ensures n in TrackedNames(tables) <==>
      exists t, e :: t in tables && e in TriggerEvents && n == TriggerName(t, e)
    decreases |tables|
  {
    if tables != [] {
      TrackedNamesMembers(tables[1..], n);
      NamesOfMembers(tables[0], TriggerEvents, n);
      assert forall t :: t in tables <==> t == tables[0] || t in tables[1..];
    }
  }

  /** Position of the first kind whose trigger statement fails, or `|events|`. */
  function FirstFailingEvent(table: string, columns: seq<string>, events: seq<string>,
                             execOk: Statement -> bool): (k: nat)
    ensures k <= |events|
    ensures forall j :: 0 <= j < k ==> execOk(CreateTrigger(table, events[j], columns))
    ensures k < |events| ==> !execOk(CreateTrigger(table, events[k], columns))
    decreases |events|
  {
    if events == [] then 0
    else if !execOk(CreateTrigger(table, events[0], columns)) then 0
    else 1 + FirstFailingEvent(table, columns, events[1..], execOk)
  }

  /** The inner loop over the three kinds for one table. */
  function InstallEvents(triggers: TriggerSet, table: string, columns: seq<string>,
                         events: seq<string>, execOk: Statement -> bool): (r: Installed)
    ensures Preserves(triggers, r.triggers)
    decreases |events|
  {
    if events == [] then Installed(triggers, Pass)
    else
      var stmt := CreateTrigger(table, events[0], columns);
      if !execOk(stmt) then Installed(triggers, Fail(TriggerFailed(table, events[0])))
      else InstallEvents(CreateIfNotExists(triggers, TriggerName(table, events[0]), stmt),
                         table, columns, events[1..], execOk)
  }

  /** The kinds of one table are tried in order; the pass stops at the first failing
      statement and reports that table and kind; the triggers created before it stay. */
  lemma {:induction false} InstallEventsSpec(triggers: TriggerSet, table: string, columns: seq<string>,
                                             events: seq<string>, execOk: Statement -> bool)
    ensures var r := InstallEvents(triggers, table, columns, events, execOk);
      var k := FirstFailingEvent(table, columns, events, execOk);
      && r.triggers.Keys == triggers.Keys + NamesOf(table, events[..k])
      && r.outcome == (if k == |events| then Pass else Fail(TriggerFailed(table, events[k])))
    decreases |events|
  {
    if events != [] {
      var stmt := CreateTrigger(table, events[0], columns);
      var k := FirstFailingEvent(table, columns, events, execOk);
      if execOk(stmt) {
        var next := CreateIfNotExists(triggers, TriggerName(table, events[0]), stmt);
        InstallEventsSpec(next, table, columns, events[1..], execOk);
        NamesOfCons(table, events, k);
      } else {
        NamesOfNone(table, events);
      }
    }
  }

  lemma NamesOfCons(table: string, events: seq<string>, k: nat)
    requires 0 < k <= |events|
    ensures NamesOf(table, events[..k]) == {TriggerName(table, events[0])} + NamesOf(table, events[1..][..k - 1])
  {
    assert events[..k][1..] == events[1..][..k - 1];
  }

  lemma NamesOfNone(table: string, events: seq<string>)
    ensures NamesOf(table, events[..0]) == {}
  {
    assert events[..0] == [];
  }

  /** The statement each newly created trigger holds is the generated one. */
  lemma {:induction false} InstallEventsStatements(triggers: TriggerSet, table: string, columns: seq<string>,
                                                   events: seq<string>, execOk: Statement -> bool, e: string)
    requires e in events
    requires TriggerName(table, e) in InstallEvents(triggers, table, columns, events, execOk).triggers
    requires TriggerName(table, e) !in triggers
    requires forall e' :: e' in events ==> e' in TriggerEvents
    ensures InstallEvents(triggers, table, columns, events, execOk).triggers[TriggerName(table, e)]
      == CreateTrigger(table, e, columns)
    decreases |events|
  {
    var stmt := CreateTrigger(table, events[0], columns);
    if execOk(stmt) {
      var next := CreateIfNotExists(triggers, TriggerName(table, events[0]), stmt);
      if e == events[0] {
        assert next[TriggerName(table, e)] == stmt;
      } else {
        TriggerNamesDistinct(table, e, table, events[0]);
        assert e in events[1..];
        InstallEventsStatements(next, table, columns, events[1..], execOk, e);
      }
    }
  }

  /** A table passes when its columns can be read and all three statements succeed. */
  predicate TableOk(table: string, columnsOf: string -> Option<seq<string>>, execOk: Statement -> bool)
  {
    columnsOf(table).Some? && FirstFailingEvent(table, columnsOf(table).value, TriggerEvents, execOk) == 3
  }

  /** Position of the first table that does not pass, or `|tables|`. */
  function FirstFailingTable(tables: seq<string>, columnsOf: string -> Option<seq<string>>,
                             execOk: Statement -> bool): (i: nat)
    ensures i <= |tables|
    ensures forall j :: 0 <= j < i ==> TableOk(tables[j], columnsOf, execOk)
    ensures i < |tables| ==> !TableOk(tables[i], columnsOf, execOk)
    decreases |tables|
  {
    if tables == [] then 0
    else if !TableOk(tables[0], columnsOf, execOk) then 0
    else 1 + FirstFailingTable(tables[1..], columnsOf, execOk)
  }

  /** The error a failing table produces. */
  function FailureOf(table: string, columnsOf: string -> Option<seq<string>>, execOk: Statement -> bool): InitError
    requires !TableOk(table, columnsOf, execOk)
  {
    match columnsOf(table)
    case None => ColumnsFailed(table)
    case Some(columns) =>
      TriggerFailed(table, TriggerEvents[FirstFailingEvent(table, columns, TriggerEvents, execOk)])
  }

  /** The trigger names a failing table got before its failure. */
  function PartialNames(table: string, columnsOf: string -> Option<seq<string>>, execOk: Statement -> bool): set<string>
  {
    match columnsOf(table)
    case None => {}
    case Some(columns) => NamesOf(table, TriggerEvents[..FirstFailingEvent(table, columns, TriggerEvents, execOk)])
  }

  /** The outer loop over the tables. */
  function InstallTables(triggers: TriggerSet, tables: seq<string>,
                         columnsOf: string -> Option<seq<string>>, execOk: Statement -> bool): (r: Installed)
    ensures Preserves(triggers, r.triggers)
    decreases |tables|
  {
    if tables == [] then Installed(triggers, Pass)
    else
      match columnsOf(tables[0])
      case None => Installed(triggers, Fail(ColumnsFailed(tables[0])))
      case Some(columns) =>
        var r := InstallEvents(triggers, tables[0], columns, TriggerEvents, execOk);
        if r.outcome.Fail? then r
        else InstallTables(r.triggers, tables[1..], columnsOf, execOk)
  }

  lemma TrackedNamesCons(tables: seq<string>, i: nat)
    requires 0 < |tables| && i < |tables|
    ensures TrackedNames(tables[..i + 1]) == NamesOf(tables[0], TriggerEvents) + TrackedNames(tables[1..][..i])
  {
    assert tables[..i + 1][1..] == tables[1..][..i];
  }

  /** Tables are processed in order and the pass stops at the first table whose
      columns cannot be read or whose trigger statement fails, with an error naming
      that table (and kind); the tables before it are fully installed, it keeps the
      triggers created before the failure, and no later table is touched. */
  lemma {:induction false} InstallTablesSpec(triggers: TriggerSet, tables: seq<string>,
                                             columnsOf: string -> Option<seq<string>>, execOk: Statement -> bool)
    ensures var r := InstallTables(triggers, tables, columnsOf, execOk);
      var i := FirstFailingTable(tables, columnsOf, execOk);
      && (i == |tables| ==> r.outcome == Pass && r.triggers.Keys == triggers.Keys + TrackedNames(tables))
      && (i < |tables| ==>
            && r.outcome == Fail(FailureOf(tables[i], columnsOf, execOk))
            && r.triggers.Keys == triggers.Keys + TrackedNames(tables[..i])
                                  + PartialNames(tables[i], columnsOf, execOk))
    decreases |tables|, 1
  {
    if tables != [] {
      if TableOk(tables[0], columnsOf, execOk) {
        HeadPasses(triggers, tables, columnsOf, execOk);
      } else {
        TrackedNamesNone(tables);
        HeadFails(triggers, tables, columnsOf, execOk);
      }
    }
  }

  /** `InstallTablesSpec` when the first table passes: the pass continues with the
      rest of the tables from the triggers the first one added. */
  lemma {:induction false} HeadPasses(triggers: TriggerSet, tables: seq<string>,
                                      columnsOf: string -> Option<seq<string>>, execOk: Statement -> bool)
    requires tables != [] && TableOk(tables[0], columnsOf, execOk)
    ensures var r := InstallTables(triggers, tables, columnsOf, execOk);
      var i := FirstFailingTable(tables, columnsOf, execOk);
      && (i == |tables| ==> r.outcome == Pass && r.triggers.Keys == triggers.Keys + TrackedNames(tables))
      && (i < |tables| ==>
            && r.outcome == Fail(FailureOf(tables[i], columnsOf, execOk))
            && r.triggers.Keys == triggers.Keys + TrackedNames(tables[..i])
                                  + PartialNames(tables[i], columnsOf, execOk))
    decreases |tables|, 0
  {
    var t := tables[0];
    var columns := columnsOf(t).value;
    InstallEventsSpec(triggers, t, columns, TriggerEvents, execOk);
    var r := InstallEvents(triggers, t, columns, TriggerEvents, execOk);
    assert TriggerEvents[..3] == TriggerEvents;
    InstallTablesSpec(r.triggers, tables[1..], columnsOf, execOk);
    var rest := FirstFailingTable(tables[1..], columnsOf, execOk);
    assert FirstFailingTable(tables, columnsOf, execOk) == 1 + rest;
    var last := InstallTables(r.triggers, tables[1..], columnsOf, execOk);
    assert InstallTables(triggers, tables, columnsOf, execOk) == last;
    if rest < |tables| - 1 {
      assert tables[1..][rest] == tables[1 + rest];
      HeadPassedSome(triggers.Keys, tables, 1 + rest, last.triggers.Keys,
        PartialNames(tables[1 + rest], columnsOf, execOk));
    } else {
      HeadPassedAll(triggers.Keys, tables, last.triggers.Keys);
    }
  }

  /** `InstallTablesSpec` when the first table already fails. */
  lemma HeadFails(triggers: TriggerSet, tables: seq<string>,
                  columnsOf: string -> Option<seq<string>>, execOk: Statement -> bool)
    requires tables != [] && !TableOk(tables[0], columnsOf, execOk)
    ensures FirstFailingTable(tables, columnsOf, execOk) == 0
    ensures var r := InstallTables(triggers, tables, columnsOf, execOk);
      && r.outcome == Fail(FailureOf(tables[0], columnsOf, execOk))
      && r.triggers.Keys == triggers.Keys + PartialNames(tables[0], columnsOf, execOk)
  {
    match columnsOf(tables[0])
    case None =>
    case Some(columns) =>
      InstallEventsSpec(triggers, tables[0], columns, TriggerEvents, execOk);
  }

  lemma TrackedNamesNone(tables: seq<string>)
    ensures TrackedNames(tables[..0]) == {}
  {
    assert tables[..0] == [];
  }

  /** The set algebra of `InstallTablesSpec` when every table passes. */
  lemma HeadPassedAll(base: set<string>, tables: seq<string>, keys: set<string>)
    requires tables != []
    requires keys == base + NamesOf(tables[0], TriggerEvents) + TrackedNames(tables[1..])
    ensures keys == base + TrackedNames(tables)
  {
    assert TrackedNames(tables) == NamesOf(tables[0], TriggerEvents) + TrackedNames(tables[1..]);
  }

  /** The set algebra of `InstallTablesSpec` when the first table passes and a later one fails. */
  lemma HeadPassedSome(base: set<string>, tables: seq<string>, i: nat, keys: set<string>, partial: set<string>)
    requires 0 < i < |tables|
    requires keys == base + NamesOf(tables[0], TriggerEvents) + TrackedNames(tables[1..][..i - 1]) + partial
    ensures keys == base + TrackedNames(tables[..i]) + partial
  {
    TrackedNamesCons(tables, i - 1);
  }

  /** Every trigger the pass created holds the statement generated for its table and kind. */
  lemma {:induction false} InstallTablesStatements(triggers: TriggerSet, tables: seq<string>,
                                                   columnsOf: string -> Option<seq<string>>,
                                                   execOk: Statement -> bool, t: string, e: string)
    requires t in tables && e in TriggerEvents
    requires TriggerName(t, e) in InstallTables(triggers, tables, columnsOf, execOk).triggers
    requires TriggerName(t, e) !in triggers
    ensures columnsOf(t).Some?
    ensures InstallTables(triggers, tables, columnsOf, execOk).triggers[TriggerName(t, e)]
      == CreateTrigger(t, e, columnsOf(t).value)
    decreases |tables|
  {
    match columnsOf(tables[0])
    case None =>
    case Some(columns) =>
      var r := InstallEvents(triggers, tables[0], columns, TriggerEvents, execOk);
      InstallEventsSpec(triggers, tables[0], columns, TriggerEvents, execOk);
      if TriggerName(t, e) in r.triggers {
        NameOfTable(tables[0], TriggerEvents, t, e);
        InstallEventsStatements(triggers, tables[0], columns, TriggerEvents, execOk, e);
        if r.outcome.Pass? {
          assert InstallTables(triggers, tables, columnsOf, execOk).triggers[TriggerName(t, e)]
            == r.triggers[TriggerName(t, e)];
        }
      } else if r.outcome.Pass? {
        assert t in tables[1..];
        InstallTablesStatements(r.triggers, tables[1..], columnsOf, execOk, t, e);
      }
  }

  /** The trigger a pass created under `TriggerName(t, e)` is the text generated for
      table `t` and kind `e`: it creates exactly that name, fires after `e` on `t`,
      and inserts into the change log. */
  lemma InstalledTriggerText(triggers: TriggerSet, tables: seq<string>,
                             columnsOf: string -> Option<seq<string>>,
                             execOk: Statement -> bool, t: string, e: string)
    requires t in tables && e in TriggerEvents
    requires TriggerName(t, e) in InstallTables(triggers, tables, columnsOf, execOk).triggers
    requires TriggerName(t, e) !in triggers
    ensures var text := SqlOf(InstallTables(triggers, tables, columnsOf, execOk).triggers[TriggerName(t, e)]);
      && Contains(text, CreateKeyword + TriggerName(t, e) + NewLine)
      && Contains(text, AfterKeyword + e + OnKeyword + t + NewLine)
      && Contains(text, InsertKeyword + ChangesTable + ChangesColumns)
  {
    InstallTablesStatements(triggers, tables, columnsOf, execOk, t, e);
    TriggerSqlShape(t, e, columnsOf(t).value);
  }

  /** A name created for one table's kinds that equals `TriggerName(t, e)` identifies that table and kind. */
  lemma NameOfTable(table: string, events: seq<string>, t: string, e: string)
    requires forall e' :: e' in events ==> e' in TriggerEvents
    requires e in TriggerEvents
    requires TriggerName(t, e) in NamesOf(table, events)
    ensures t == table && e in events
  {
    NamesOfMembers(table, events, TriggerName(t, e));
    var e' :| e' in events && TriggerName(t, e) == TriggerName(table, e');
    if t != table || e != e' {
      TriggerNamesDistinct(t, e, table, e');
    }
  }

  /** Re-running the kinds of a table changes nothing: each statement succeeds or
      fails as before, and every name it would create is already present. */
  lemma {:induction false} InstallEventsIdempotent(triggers: TriggerSet, table: string, columns: seq<string>,
                                                   events: seq<string>, execOk: Statement -> bool)
    ensures var r := InstallEvents(triggers, table, columns, events, execOk);
      InstallEvents(r.triggers, table, columns, events, execOk) == r
  {
    var r := InstallEvents(triggers, table, columns, events, execOk);
    InstallEventsSpec(triggers, table, columns, events, execOk);
    var k := FirstFailingEvent(table, columns, events, execOk);
    RerunUpTo(r.triggers, table, columns, events, execOk, k);
  }

  /** With all names up to the first failure present, the kinds loop changes nothing. */
  lemma {:induction false} RerunUpTo(present: TriggerSet, table: string, columns: seq<string>,
                                     events: seq<string>, execOk: Statement -> bool, k: nat)
    requires k == FirstFailingEvent(table, columns, events, execOk)
    requires NamesOf(table, events[..k]) <= present.Keys
    ensures InstallEvents(present, table, columns, events, execOk)
      == Installed(present, if k == |events| then Pass else Fail(TriggerFailed(table, events[k])))
    decreases |events|
  {
    if events != [] && k > 0 {
      NamesOfCons(table, events, k);
      RerunUpTo(present, table, columns, events[1..], execOk, k - 1);
    }
  }

  /** Re-running the installation over the same tables, with the same statement
      outcomes, adds no trigger and ends the same way. */
  lemma {:induction false} InstallTablesIdempotent(triggers: TriggerSet, tables: seq<string>,
                                                   columnsOf: string -> Option<seq<string>>,
                                                   execOk: Statement -> bool)
    ensures var r := InstallTables(triggers, tables, columnsOf, execOk);
      InstallTables(r.triggers, tables, columnsOf, execOk) == r
    decreases |tables|
  {
    if tables != [] {
      match columnsOf(tables[0])
      case None =>
      case Some(columns) =>
        var r1 := InstallEvents(triggers, tables[0], columns, TriggerEvents, execOk);
        if r1.outcome.Fail? {
          InstallEventsIdempotent(triggers, tables[0], columns, TriggerEvents, execOk);
        } else {
          var r := InstallTables(r1.triggers, tables[1..], columnsOf, execOk);
          InstallEventsSpec(triggers, tables[0], columns, TriggerEvents, execOk);
          assert TriggerEvents[..3] == TriggerEvents;
          assert NamesOf(tables[0], TriggerEvents) <= r.triggers.Keys;
          RerunUpTo(r.triggers, tables[0], columns, TriggerEvents, execOk, 3);
          InstallTablesIdempotent(r1.triggers, tables[1..], columnsOf, execOk);
        }
    }
  }

  /** `initDatabase`: create the change log, list the tracked tables, install their triggers. */
  function InitDatabase(triggers: TriggerSet, catalog: Option<seq<MasterRow>>,
                        columnsOf: string -> Option<seq<string>>, execOk: Statement -> bool): (r: Installed)
    ensures Preserves(triggers, r.triggers)
    ensures !execOk(CreateChangesTable) ==> r == Installed(triggers, Fail(ChangesTableFailed))
    ensures execOk(CreateChangesTable) && catalog.None? ==> r == Installed(triggers, Fail(TablesFailed))
  {
    if !execOk(CreateChangesTable) then Installed(triggers, Fail(ChangesTableFailed))
    else
      match GetTables(catalog)
      case Failure(_) => Installed(triggers, Fail(TablesFailed))
      case Success(tables) => InstallTables(triggers, tables, columnsOf, execOk)
  }

  /** A successful start installs exactly the three triggers of every tracked table. */
  lemma InitDatabaseInstallsAll(triggers: TriggerSet, catalog: Option<seq<MasterRow>>,
                                columnsOf: string -> Option<seq<string>>, execOk: Statement -> bool)
    requires InitDatabase(triggers, catalog, columnsOf, execOk).outcome.Pass?
    ensures catalog.Some?
    ensures InitDatabase(triggers, catalog, columnsOf, execOk).triggers.Keys
      == triggers.Keys + TrackedNames(SelectTables(catalog.value))
  {
    var tables := SelectTables(catalog.value);
    InstallTablesSpec(triggers, tables, columnsOf, execOk);
  }

  /** The trigger names of a table list with one more table. */
  lemma {:induction false} TrackedNamesAppend(tables: seq<string>, t: string)
    ensures TrackedNames(tables + [t]) == TrackedNames(tables) + NamesOf(t, TriggerEvents)
    decreases |tables|
  {
    if tables == [] {
      assert [] + [t] == [t];
      assert [t][1..] == [];
    } else {
      assert (tables + [t])[1..] == tables[1..] + [t];
      TrackedNamesAppend(tables[1..], t);
    }
  }

  /** `createTable`: after a successful start, creating a new tracked table appends it
      to the catalog and re-runs the initialisation. When that succeeds, every
      earlier trigger keeps its definition and exactly the new table's three
      triggers are added. */
  lemma CreateTableAddsTriggers(triggers: TriggerSet, master: seq<MasterRow>, t: string,
                                columnsOf: string -> Option<seq<string>>, execOk: Statement -> bool)
    requires IsTracked(t)
    ensures var first := InitDatabase(triggers, Some(master), columnsOf, execOk);
      var second := InitDatabase(first.triggers, Some(master + [MasterRow("table", t)]), columnsOf, execOk);
      first.outcome.Pass? && second.outcome.Pass? ==>
        && Preserves(first.triggers, second.triggers)
        && second.triggers.Keys == first.triggers.Keys + NamesOf(t, TriggerEvents)
  {
    var first := InitDatabase(triggers, Some(master), columnsOf, execOk);
    var grown := master + [MasterRow("table", t)];
    var second := InitDatabase(first.triggers, Some(grown), columnsOf, execOk);
    if first.outcome.Pass? && second.outcome.Pass? {
      InitDatabaseInstallsAll(triggers, Some(master), columnsOf, execOk);
      InitDatabaseInstallsAll(first.triggers, Some(grown), columnsOf, execOk);
      SelectTablesAppend(master, MasterRow("table", t));
      TrackedNamesAppend(SelectTables(master), t);
    }
  }

  /** Running the whole initialisation twice (as creating a table does) adds no
      trigger the first run did not create and reports the same outcome. */
  lemma InitDatabaseIdempotent(triggers: TriggerSet, catalog: Option<seq<MasterRow>>,
                               columnsOf: string -> Option<seq<string>>, execOk: Statement -> bool)
    ensures var r := InitDatabase(triggers, catalog, columnsOf, execOk);
      InitDatabase(r.triggers, catalog, columnsOf, execOk) == r
  {
    if execOk(CreateChangesTable) && catalog.Some? {
      InstallTablesIdempotent(triggers, SelectTables(catalog.value), columnsOf, execOk);
    }
  }
}

=== FILE: wrappers.dfy ===
/** Failure-carrying datatypes used to model the error returns of the Go code
    and the exceptions of the JavaScript client. */
module Wrappers {

  /** A value that may be absent. */
  datatype Option<+T> = None | Some(value: T)

  /** Either a value or an error, as a Go `(T, error)` pair that is used
      correctly (exactly one of the two is meaningful). */
  datatype Result<+T, +E> = Success(value: T) | Failure(error: E)

  /** An operation that returns only an `error`: `nil` is `Pass`. */
  datatype Outcome<+E> = Pass | Fail(error: E)
}
